=== FILE: README.md ===
# rustc-perf loader, modelled in Dafny

This project models the loading core of the rustc-perf dashboard backend. That core is `backend/src/load.rs`. It turns processed benchmark documents into two series of test runs:

- the *bootstrap* series, from runs of the compiler itself (`Kind::Rustc`);
- the *benchmark* series, from runs that compile benchmark crates (`Kind::Benchmarks`).

It then adds derived data and answers date-range queries:

- the latest date;
- the bootstrap crate list, the phase list and the set of benchmark names;
- the two series, sorted by date;
- a twelve-week trend summary per series, built from three-run median windows.

The model works on documents that are already parsed (`Record`, `Entry`). Every operation is a pure function over immutable datatypes:

| module | file | models |
|---|---|---|
| `LoadTypes` | `types.dfy` | `Timing`, `TestRun`, `Kind`, `MedianRun`, `Summary`, `InputData`, the error cases, `WEEKS_IN_SUMMARY` |
| `Filename` | `filename.dfy` | `testname_from_filename` and the choice of series |
| `Timings` | `timings.dfy` | `make_times`, `Timing::new` and the synthetic `total` phase and crate |
| `Merge` | `merge.dfy` | the record loop of `from_fs`: skipping, merging by commit, appending |
| `DateSort` | `sorting.dfy` | `Vec::sort` under the date-only `Ord` of `TestRun` (a stable sort) |
| `Median` | `median.dfy` | `MedianRun::new` |
| `Summaries` | `summary.dfy` | `get_percent_change`, `compare_weeks`, `Summary::new` |
| `Input` | `input.dfy` | `InputData::new`, `by_kind`, `kinded_range`, `kinded_start_day`, `kinded_end_day` |

Two functions are not in the modelled file: `index_in` (a date to the index of the nearest run) and `start_of_week`. Every operation that uses them takes them as function parameters, so its properties hold for any such function. Dates are whole seconds, and a week is 604800 of them. Times are `real`, and memory figures are `nat`.

Where the source panics, the model returns an error. This covers `unwrap` on a file name with no `--`, `expect("No dates found")`, and the assertion at the dawn of the data. The error cases are in `LoadTypes.LoadError`.

## Model

| member | source | states |
|---|---|---|
| Filename.TestName | backend/src/load.rs:247-249 | The test name is the prefix before the first `--`. The file name is that prefix, then `--`, then the rest. No `--` starts inside the prefix. The result is absent exactly when the name holds no `--` (where the source panics). |
| Filename.TestNameOfComposed | backend/src/load.rs:274-280 | Round trip: a name with no `--` that does not end in `-`, followed by `--` and any suffix, reads back as that name. The kind is `Rustc` exactly for `rustc`. This covers both cases the source's test checks. |
| Filename.KindOfFile | backend/src/load.rs:114-118 | A file selects a series exactly when it has a test name. It selects the bootstrap series exactly when the test name is `rustc`. |
| Filename.FindSeparatorFrom | backend/src/load.rs:248 | `find("--")`: the result is a separator position. No separator starts earlier. When the result is absent, no separator follows the start position at all. |
| Timings.PhaseTimings | backend/src/load.rs:370-398 | An entry's phase map has the reported phases plus `total`. Each reported phase keeps its percent and time, and its memory is the `rss` figure for that phase, if any. `total` has percent 100, the entry's total time, and the largest `rss` figure (0 when there is none). `total` replaces a reported phase of that name. |
| Timings.TotalRssBoundsPhases | backend/src/load.rs:386-398 | The `total` phase always has a memory figure, and no other phase's figure exceeds it. |
| Timings.MaxOption | backend/src/load.rs:405 | `max` on `Option<u64>`: any figure beats none. The result is one of the two arguments and bounds both. |
| Timings.MaxOf | backend/src/load.rs:386-397 | `max().unwrap_or(0)`: the result bounds every value, is one of them when there are any, and is 0 otherwise. |
| Timings.ZeroTiming | backend/src/load.rs:357-365 | `Timing::new`: percent 0, time 0 and a memory figure of `Some(0)`. |
| Timings.AddPhases | backend/src/load.rs:400-406 | One entry folded into the running aggregate: the keys become the union. For each of the entry's phases, starting from `Timing::new` when the phase is new, the time grows by the entry's time, the memory becomes the larger of the two figures, and the percent is kept. Every other phase is untouched. |
| Timings.Totals | backend/src/load.rs:370-406 | The aggregate's phases are exactly the phases reported by some entry (`ReportedPhasesChar`). Every aggregate phase has percent 0 and some memory figure. |
| Timings.ReportedPhasesChar | backend/src/load.rs:400-406 | A phase is in the aggregate iff some entry's phase map holds it. |
| Timings.ReportedPhaseChar | backend/src/load.rs:400-406 | For one phase: it is reported iff some entry's phase map holds it. |
| Timings.TotalsAggregate | backend/src/load.rs:400-406 | Each phase of the aggregate is the sum of that phase's time over all entries. Its memory is the largest figure any entry gives for it, starting from `Some(0)`. |
| Timings.TotalsAt | backend/src/load.rs:400-406 | For one phase of the aggregate: its time is the sum over all entries and its memory is the largest figure any entry gives. |
| Timings.TotalsStep | backend/src/load.rs:400-406 | For one phase, the aggregate over the entries is the aggregate over all but the last, updated by the last entry's figure for that phase if it has one. |
| Timings.TotalOfTotals | backend/src/load.rs:393-406 | For a non-empty run, the aggregate's `total` phase is the sum of the entries' total times. Its memory is the largest `rss` figure of any entry. |
| Timings.ByCrateOf | backend/src/load.rs:408 | A crate is in the map iff some entry names it. Its timings are those of the last entry that names it, because a later insert wins. |
| Timings.MakeTimes | backend/src/load.rs:367-416 | A bootstrap run has a `total` crate equal to the aggregate. Every other crate is present iff some entry names it, and holds that crate's last entry. Without `is_rustc`, `total` is present only if an entry is named `total`. |
| Merge.FindCommit | backend/src/load.rs:123-125 | `position`: the first run with the commit. When it is absent, no run has the commit. |
| Merge.NewTestRun | backend/src/load.rs:333-344 | A new run keeps the date and commit. Its kind is `Rustc` exactly for the test name `rustc`. Its crates are `make_times` of its entries, with `is_rustc` set exactly for `rustc`. |
| Merge.MergeInto | backend/src/load.rs:115-144 | A new commit is appended and leaves the earlier runs untouched. A known commit keeps the length. Only the matching run changes, and it keeps its date, commit and kind. Its crates become the overlay: the incoming crates win and the others stay. The commit set grows by exactly the record's commit. Unique commits and a single kind are preserved. |
| Merge.AddRecord | backend/src/load.rs:71-144 | A record without entries is skipped and changes nothing. A record with entries aborts the load iff it has no `--` (`MissingSeparator`) or no date (`UnresolvableDate`). Otherwise exactly one series changes, the one its test name selects: it becomes that series with the record merged in by `MergeInto` (the record's date, commit and crates), so it gains the record's commit. The invariant (`WellFormed`) is kept. |
| Merge.LoadRecords | backend/src/load.rs:61-153 | The load fails iff some record is rejected, and then with a file-name or date error. On success both series have unique commits and only runs of their own kind. Each series' commits are exactly those of the accepted records of its kind. |
| DateSort.InsertByDate | backend/src/load.rs:326-330 | Insertion under the date-only order: the result is sorted and is a permutation of the input plus the run. |
| DateSort.SortByDate | backend/src/load.rs:181-182 | The sorted series is ordered by date and is a permutation of the input. |
| DateSort.SortByDateStable | backend/src/load.rs:181-182 | Stability: for every date, the runs of that date keep their input order. |
| DateSort.InsertByDateStable | backend/src/load.rs:326-330 | The inserted run goes before every run of its date and leaves their order alone. |
| Median.InsertReal | backend/src/load.rs:468 | The result is sorted and is a permutation of the input plus the value. |
| Median.SortReals | backend/src/load.rs:468 | `sort_by(partial_cmp)`: the result is sorted and is a permutation of the input. |
| Median.MedianOf | backend/src/load.rs:466-469 | `values[len / 2]` of the sorted values is one of the values. |
| Median.MedianOfTwo | backend/src/load.rs:466-469 | With two values, the median is the larger. |
| Median.MedianOfThree | backend/src/load.rs:466-469 | With three values, the median is the middle one. |
| Median.WindowIndices | backend/src/load.rs:433-441 | The window reads `i`, `i - 1` and `i - 2`, newest first, with no duplicates. It keeps exactly the indices that exist (`checked_sub`, then `get`). |
| Median.Reporting | backend/src/load.rs:443-457 | The positions of the window's runs that hold the crate and phase: each such run exactly once, in increasing order, and no other. |
| Median.PhaseValues | backend/src/load.rs:443-457 | One time per run of the window that reports the phase, in window order: its length is the number of reporting runs (`Reporting`) and its `n`-th element is the time of the `n`-th reporting run. It is non-empty iff some run in the window reports the phase. |
| Median.NewMedianRun | backend/src/load.rs:430-477 | The window carries the given date. Its crates and phases are exactly those of the runs at `i`, `i - 1` and `i - 2`. Each value is the time of that phase in one of those runs; `Median.WindowMedian` says which one. |
| Median.MedianRunValue | backend/src/load.rs:464-470 | A crate and phase that a run read by the window reports is in the median window. Its value is the median of one to three collected times, so the source's "at least one value" assertion cannot fail. |
| Median.WindowMedian | backend/src/load.rs:443-470 | For a crate and phase that a run of the window reports, the window holds it. Its value depends on the one to three reporting runs only: the single time, the larger of two, or the middle of three. |
| Median.MedianOfFew | backend/src/load.rs:466-469 | `values[len / 2]` after sorting one to three values: the value, the larger of two, or the middle of three. |
| Median.NewMedianRunLocal | backend/src/load.rs:433-441 | Frame property: series that agree at `i`, `i - 1` and `i - 2` give the same window. |
| Median.MedianExamples | backend/src/load.rs:466-469 | Times 30, 20, 10 give 20. Times 20, 10 give 20, the upper middle value. |
| Summaries.PercentChange | backend/src/load.rs:540-542 | Inverse: applying the change to `previous` gives back `current`. For a positive `previous`, the change is positive iff the value grew and zero iff it stayed the same. |
| Summaries.CompareWeeks | backend/src/load.rs:544-576 | The result carries the second window's date. Its crates are those in both windows. A phase is kept iff both windows have it with a positive median. Its value is the percent change from the first window to the second. |
| Summaries.Backfill | backend/src/load.rs:522-529 | Every benchmark name is present afterwards. Existing crates keep their maps, and missing names get an empty map. |
| Summaries.WeekWindows | backend/src/load.rs:496-503 | The load aborts iff both ends of the week resolve to index 0. Otherwise the end index is kept. The start index is kept iff it differs from the end index; when they are equal it steps back by one. |
| Summaries.WeekComparison | backend/src/load.rs:494-506 | The comparison for week `i` fails iff that week is thin at the dawn of the data. Otherwise it is dated at the week's end, and it compares the median window at the start index that `WeekWindows` resolves with the one at the end index. |
| Summaries.WeeklyComparisons | backend/src/load.rs:493-507 | `n` comparisons in week order, each that week's comparison. The fold fails iff some week among them is thin. |
| Summaries.NewSummary | backend/src/load.rs:488-535 | Exactly 12 weeks, each dated at its end. Each week holds its comparison's crates unchanged, plus every benchmark name with an empty map. The total compares the windows at `start_of_week - 13 weeks` and `last_date + 1 week`. It is never checked for thinness and never backfilled. The summary fails iff one of the 12 weeks is thin. |
| Summaries.MedianLagsGrowth | backend/src/load.rs:430-477 | Consequence of the three-run median: if a phase's times never fall over the first three runs, comparing the windows at the second and third runs reports a change of 0, however much the times grew. |
| Input.LastDate | backend/src/load.rs:162-178 | Absent iff there are no runs. Otherwise it is the date of some run, and no run is later. |
| Input.CrateList | backend/src/load.rs:168-171 | Exactly the crates of the bootstrap runs. |
| Input.PhaseList | backend/src/load.rs:173-175 | Exactly the phases of any crate of any run, of either kind. |
| Input.BenchmarkNames | backend/src/load.rs:183-187 | Exactly the crates of the runs. |
| Input.BenchmarkNamesPermutation | backend/src/load.rs:180-187 | The names taken after sorting are the names of the unsorted series. |
| Input.NewInputData | backend/src/load.rs:156-204 | `NoDates` iff both series are empty. `DawnOfData` iff some week of either sorted series is thin at the latest date's week; there is no other failure. The latest date, the crate list and the phase list are as above, over both series. The benchmark names are the crates of the benchmark series. Both series come back sorted by date and are permutations of their inputs. Each summary is the `Summary::new` of its sorted series at the start of the latest date's week, with the benchmark names. |
| Input.SummaryPair | backend/src/load.rs:190-192 | The two summaries fail iff some week of either sorted series is thin. Otherwise they are those series' summaries, bootstrap first. |
| Input.SortKeepsUniqueCommits | backend/src/load.rs:181-182 | Sorting keeps a series' commits unique. |
| Input.SortKeepsKind | backend/src/load.rs:181-182 | Sorting keeps a series of one kind. |
| Input.SortKeepsSeries | backend/src/load.rs:181-182 | Sorting a loaded series keeps its set of commits, keeps them unique and keeps its kind; the series has no commits iff it is empty. |
| Input.FromRecords | backend/src/load.rs:61-153 | `from_fs` as a whole. A rejected record fails the load with its file-name or date error, and those errors arise only from a rejected record. With no rejected record, it fails with `NoDates` iff no record was accepted, and with `DawnOfData` iff some week of a loaded series is thin. It succeeds exactly when none of these holds. On success each final series is sorted by date, holds only its own kind, has no commit twice, and holds exactly the commits of the records accepted into it. It is a reordering of the loaded series, and the latest date, the crate list, the phase list, the benchmark names and both summaries are those `InputData::new` computes from the loaded series. |
| Input.ByKindOfLoad | backend/src/load.rs:206-211 | `by_kind` after a successful load: the series of a kind holds only runs of that kind, sorted by date, one per commit, and exactly the commits of the records accepted into it. |
| Input.KindedRange | backend/src/load.rs:214-219 | The slice exists iff `start <= end + 1 <= len`, the condition under which the source does not panic. When it exists, it is exactly the runs from the start index through the end index. |
| Input.KindedDay | backend/src/load.rs:221-229 | Present iff the index is in bounds. It is then a run of the chosen series, and it is the single run of the range from that day to the same day. The source's `kinded_end_day` and `kinded_start_day` are both this lookup. |
| Input.RangeBetweenDays | backend/src/load.rs:214-229 | A non-empty range starts at the start-day run and ends at the end-day run. On a sorted series it is sorted, with every date between those two runs' dates. |

## Left out

- File-system access, the JSON parser and the two date parsers are not modelled. `from_fs` is modelled from the point where each document is parsed into a `Record`. Before that point the source skips empty files and files that are not valid JSON; their only trace is the skip counter. Directories are passed over. An I/O error (the directory listing, an entry, its file type, opening the file, or reading it, which also fails on a body that is not UTF-8) aborts the whole load; these errors are outside the model.
- The skip, merge and file counters and all logging are left out. They do not affect the loaded data.
- `index_in`, `start_of_week` and `OptionalDate::as_start`/`as_end` are defined outside the modelled file. They are parameters: the kinded queries take dates that are already resolved.
- `f64` semantics are left out. NaN, infinities and rounding are not modelled, and times are exact reals. The `partial_cmp().unwrap()` panic on NaN therefore has no counterpart.
- `Summaries.PercentChange`: requires a non-zero `previous`, where the source would divide by zero and produce an infinity or NaN. Every call site only passes medians already checked to be positive.
- `HashMap` iteration order is not modelled: every map is a Dafny `map`, and no iteration order of a map affects the loaded data. The order that does matter is that of `fs::read_dir`. It decides which record's crates win a merge, which record fixes a merged run's date, and the order of runs with equal dates. The model takes the records in whatever order it is given, and its properties hold for every order.
- The date-resolution error (`UnresolvableDate`) stands for both date parsers failing. Which parser is tried first is not modelled.
- `Serialize`/`Deserialize` of the types, and the `iron` typemap key, are framework glue.

## Notes on the source

- A document whose date cannot be resolved aborts the whole load: `?` propagates out of `from_fs`. Such a document is not skipped. The model follows the code (`Merge.AddRecord`).
- Merging a record into a run of the same commit keeps that run's date and kind. Only the crates are overlaid.
- The aggregate `total` crate of a bootstrap run sums every entry, including an earlier entry for a crate that a later entry then replaces in the crate map (`Timings.TotalsAggregate` against `Timings.ByCrateOf`).
- A benchmark run can hold a crate named `total` if one of its entries is named so. The `total` crate is therefore not exclusive to bootstrap runs (`Timings.MakeTimes`).
- Because of the three-run median, a steady climb of 100, 110, 121 does not show as two weekly +10% steps. The window at the second run has median 110 (the upper of 100 and 110), and the window at the third run also has median 110. The second comparison therefore reports 0% (`Summaries.MedianLagsGrowth`).

=== FILE: filename.dfy ===
/** Deriving the test name, and hence the run kind, from a file name of the
    form `<test-name>--<date>.json`. */
module Filename {
  import opened LoadTypes

  /** The test name reserved for bootstrap runs of the compiler. */
  const RUSTC: string := "rustc"

  /** A `--` separator starts at position `j` of `s`. */
  predicate SeparatorAt(s: string, j: int) {
    0 <= j && j + 1 < |s| && s[j] == '-' && s[j + 1] == '-'
  }

  /** No `--` occurs anywhere in `s`. */
  predicate NoSeparator(s: string) {
    forall j :: 0 <= j < |s| ==> !SeparatorAt(s, j)
  }

  /** The first `--` at or after position `i`. */
  function FindSeparatorFrom(s: string, i: nat): (r: Option<nat>)
    ensures r.Some? ==> i <= r.value && SeparatorAt(s, r.value)
    ensures r.Some? ==> forall j :: i <= j < r.value ==> !SeparatorAt(s, j)
    ensures r.None? ==> forall j :: i <= j ==> !SeparatorAt(s, j)
    decreases |s| - i
  {
    if i + 1 >= |s| then None
    else if s[i] == '-' && s[i + 1] == '-' then Some(i)
    else FindSeparatorFrom(s, i + 1)
  }

  /** The test name: everything before the first `--`, or `None` when the
      file name has no separator (the source unwraps and panics there). */
  function TestName(filename: string): (r: Option<string>)
    ensures r.Some? ==> |r.value| + 2 <= |filename|
    ensures r.Some? ==> filename == r.value + "--" + filename[|r.value| + 2..]
    ensures r.Some? ==> forall j :: 0 <= j < |r.value| ==> !SeparatorAt(filename, j)
    ensures r.None? <==> NoSeparator(filename)
  {
    match FindSeparatorFrom(filename, 0)
    case None => None
    case Some(k) =>
      assert filename == filename[..k] + "--" + filename[k + 2..];
      Some(filename[..k])
  }

  /** The series a test name selects. */
  function KindOf(testName: string): Kind {
    if testName == RUSTC then Rustc else Benchmarks
  }

  /** The kind a file name selects, if it has a test name at all. */
  function KindOfFile(filename: string): (r: Option<Kind>)
    ensures r.Some? <==> !NoSeparator(filename)
    ensures r == Some(Rustc) <==> TestName(filename) == Some(RUSTC)
  {
    match TestName(filename)
    case None => None
    case Some(t) => Some(KindOf(t))
  }

  /** A name that can stand before the separator and be read back whole:
      it holds no `--` and does not end with `-`. */
  predicate ValidTestName(t: string) {
    NoSeparator(t) && (|t| == 0 || t[|t| - 1] != '-')
  }

  /** Composing a file name from a valid test name and any suffix, then
      reading the test name back, gives the test name again; the kind is
      `Rustc` exactly for the reserved name. */
  lemma TestNameOfComposed(t: string, rest: string)
    requires ValidTestName(t)
    ensures TestName(t + "--" + rest) == Some(t)
    ensures KindOfFile(t + "--" + rest) == Some(if t == RUSTC then Rustc else Benchmarks)
  {
    var f := t + "--" + rest;
    assert SeparatorAt(f, |t|);
    forall j | 0 <= j < |t|
      ensures !SeparatorAt(f, j)
    {
      if j + 1 < |t| {
        assert !SeparatorAt(t, j);
        assert t[j] == f[j] && t[j + 1] == f[j + 1];
      } else {
        assert f[j] == t[|t| - 1];
      }
    }
    var k := FindSeparatorFrom(f, 0).value;
    assert k == |t|;
    assert f[..k] == t;
  }
}

=== FILE: input.dfy ===
/** Finalising the load: the latest date, the name sets, the sorted series
    and their summaries; and the date-range queries the dashboard serves. */
module Input {
  import opened LoadTypes
  import opened Merge
  import opened DateSort
  import opened Summaries

  /** `d` is the date of some run, and no run is later. */
  predicate IsLatest(runs: seq<TestRun>, d: Date) {
    && (exists k :: 0 <= k < |runs| && runs[k].date == d)
    && (forall k :: 0 <= k < |runs| ==> runs[k].date <= d)
  }

  /** `names` are exactly the crates of the bootstrap runs. */
  ghost predicate AreBootstrapCrates(runs: seq<TestRun>, names: set<string>) {
    forall c :: c in names <==> exists k :: 0 <= k < |runs| && runs[k].kind == Rustc && c in runs[k].byCrate
  }

  /** `names` are exactly the phases of any crate of any run. */
  ghost predicate ArePhases(runs: seq<TestRun>, names: set<string>) {
    forall p :: p in names <==> exists k, c :: 0 <= k < |runs| && c in runs[k].byCrate && p in runs[k].byCrate[c]
  }

  /** `names` are exactly the crates of any run. */
  ghost predicate AreCrates(runs: seq<TestRun>, names: set<string>) {
    forall c :: c in names <==> exists k :: 0 <= k < |runs| && c in runs[k].byCrate
  }

  /** The latest date of the runs, or `None` when there are none. */
  function LastDate(runs: seq<TestRun>): (r: Option<Date>)
    ensures r.None? <==> |runs| == 0
    ensures r.Some? ==> IsLatest(runs, r.value)
  {
    if |runs| == 0 then None
    else
      var last := runs[|runs| - 1];
      match LastDate(runs[..|runs| - 1])
      case None => Some(last.date)
      case Some(d) => if d < last.date then Some(last.date) else Some(d)
  }

  /** The crate names of the bootstrap runs. */
  function CrateList(runs: seq<TestRun>): (r: set<string>)
    ensures AreBootstrapCrates(runs, r)
  {
    if |runs| == 0 then {}
    else
      var last := runs[|runs| - 1];
      assert forall k :: 0 <= k < |runs| - 1 ==> runs[..|runs| - 1][k] == runs[k];
      CrateList(runs[..|runs| - 1]) + (if last.kind == Rustc then last.byCrate.Keys else {})
  }

  /** The phase names of one run, across its crates. */
  function RunPhases(run: TestRun): set<string>
  {
    set c, p | c in run.byCrate && p in run.byCrate[c] :: p
  }

  /** The phase names of all runs, of either kind. */
  function PhaseList(runs: seq<TestRun>): (r: set<string>)
    ensures ArePhases(runs, r)
  {
    if |runs| == 0 then {}
    else
      assert forall k :: 0 <= k < |runs| - 1 ==> runs[..|runs| - 1][k] == runs[k];
      PhaseList(runs[..|runs| - 1]) + RunPhases(runs[|runs| - 1])
  }

  /** The crate names of the runs, whatever their kind. */
  function BenchmarkNames(runs: seq<TestRun>): (r: set<string>)
    ensures AreCrates(runs, r)
  {
    if |runs| == 0 then {}
    else
      assert forall k :: 0 <= k < |runs| - 1 ==> runs[..|runs| - 1][k] == runs[k];
      BenchmarkNames(runs[..|runs| - 1]) + runs[|runs| - 1].byCrate.Keys
  }

  /** Runs that are permutations of each other have the same crate names. */
  lemma BenchmarkNamesPermutation(a: seq<TestRun>, b: seq<TestRun>)
    requires multiset(a) == multiset(b)
    ensures BenchmarkNames(a) == BenchmarkNames(b)
  {
    forall c | c in BenchmarkNames(a)
      ensures c in BenchmarkNames(b)
    {
      var k :| 0 <= k < |a| && c in a[k].byCrate;
      assert a[k] in multiset(b);
      var j :| 0 <= j < |b| && b[j] == a[k];
    }
    forall c | c in BenchmarkNames(b)
      ensures c in BenchmarkNames(a)
    {
      var k :| 0 <= k < |b| && c in b[k].byCrate;
      assert b[k] in multiset(a);
      var j :| 0 <= j < |a| && a[j] == b[k];
    }
  }

  /** The date index of one series. */
  function SeriesIndex(indexIn: (seq<TestRun>, Date) -> nat, data: seq<TestRun>): Date -> nat
  {
    d => indexIn(data, d)
  }

  /** The summary of one sorted series. */
  function SeriesSummary(sorted: seq<TestRun>, lastDate: Date, weekStart: Date, names: set<string>,
                         indexIn: (seq<TestRun>, Date) -> nat): Result<Summary>
  {
    NewSummary(sorted, lastDate, weekStart, names, SeriesIndex(indexIn, sorted))
  }

  /** The summaries of the two sorted series, bootstrap first: they fail
      iff some week of either series is thin. */
  function SummaryPair(sortedRustc: seq<TestRun>, sortedBenchmarks: seq<TestRun>, lastDate: Date,
                       weekStart: Date, names: set<string>, indexIn: (seq<TestRun>, Date) -> nat)
    : (r: Result<(Summary, Summary)>)
    ensures r.Err? <==> HasThinWeek(SeriesIndex(indexIn, sortedRustc), weekStart)
                        || HasThinWeek(SeriesIndex(indexIn, sortedBenchmarks), weekStart)
    ensures r.Err? ==> r.error == DawnOfData
    ensures r.Ok? ==> Ok(r.value.0) == SeriesSummary(sortedRustc, lastDate, weekStart, names, indexIn)
    ensures r.Ok? ==> Ok(r.value.1) == SeriesSummary(sortedBenchmarks, lastDate, weekStart, names, indexIn)
    ensures r.Ok? ==> |r.value.0.weeks| == WEEKS_IN_SUMMARY && |r.value.1.weeks| == WEEKS_IN_SUMMARY
  {
    var summaryRustc :- SeriesSummary(sortedRustc, lastDate, weekStart, names, indexIn);
    var summaryBenchmarks :- SeriesSummary(sortedBenchmarks, lastDate, weekStart, names, indexIn);
    Ok((summaryRustc, summaryBenchmarks))
  }

  /** The series are not both empty, and some week of either sorted
      series is thin at the latest date's week. */
  predicate ThinInput(rustc: seq<TestRun>, benchmarks: seq<TestRun>,
                      startOfWeek: Date -> Date, indexIn: (seq<TestRun>, Date) -> nat)
  {
    var last := LastDate(rustc + benchmarks);
    && last.Some?
    && (|| HasThinWeek(SeriesIndex(indexIn, SortByDate(rustc)), startOfWeek(last.value))
        || HasThinWeek(SeriesIndex(indexIn, SortByDate(benchmarks)), startOfWeek(last.value)))
  }

  /** `d` is the data finished from the two loaded series: each series
      sorted by date, the latest date, the name sets, and the summary of
      each sorted series over the latest date's week. */
  ghost predicate FinishedFrom(d: InputData, rustc: seq<TestRun>, benchmarks: seq<TestRun>,
                               startOfWeek: Date -> Date, indexIn: (seq<TestRun>, Date) -> nat)
  {
    && SortedByDate(d.dataRustc) && multiset(d.dataRustc) == multiset(rustc)
    && SortedByDate(d.dataBenchmarks) && multiset(d.dataBenchmarks) == multiset(benchmarks)
    && IsLatest(rustc + benchmarks, d.lastDate)
    && AreBootstrapCrates(rustc + benchmarks, d.crateList)
    && ArePhases(rustc + benchmarks, d.phaseList)
    && AreCrates(benchmarks, d.benchmarks)
    && Ok(d.summaryRustc) == SeriesSummary(d.dataRustc, d.lastDate, startOfWeek(d.lastDate), d.benchmarks, indexIn)
    && Ok(d.summaryBenchmarks) == SeriesSummary(d.dataBenchmarks, d.lastDate, startOfWeek(d.lastDate), d.benchmarks, indexIn)
  }

  /** Builds the finished data from the two loaded series, given the start
      of week of a date and the date index of a series. */
  function NewInputData(rustc: seq<TestRun>, benchmarks: seq<TestRun>,
                        startOfWeek: Date -> Date, indexIn: (seq<TestRun>, Date) -> nat)
    : (r: Result<InputData>)
    ensures r == Err(NoDates) <==> |rustc| == 0 && |benchmarks| == 0
    ensures r == Err(DawnOfData) <==> ThinInput(rustc, benchmarks, startOfWeek, indexIn)
    ensures r.Err? <==> (|rustc| == 0 && |benchmarks| == 0) || ThinInput(rustc, benchmarks, startOfWeek, indexIn)
    ensures r.Ok? ==> FinishedFrom(r.value, rustc, benchmarks, startOfWeek, indexIn)
    ensures r.Ok? ==> |r.value.summaryRustc.weeks| == WEEKS_IN_SUMMARY && |r.value.summaryBenchmarks.weeks| == WEEKS_IN_SUMMARY
  {
    var all := rustc + benchmarks;
    var last := LastDate(all);
    if last.None? then Err(NoDates)
    else
      var sortedRustc := SortByDate(rustc);
      var sortedBenchmarks := SortByDate(benchmarks);
      var names := BenchmarkNames(sortedBenchmarks);
      BenchmarkNamesPermutation(sortedBenchmarks, benchmarks);
      var summaries := SummaryPair(sortedRustc, sortedBenchmarks, last.value, startOfWeek(last.value), names, indexIn);
      if summaries.Err? then Err(summaries.error)
      else
        Ok(InputData(summaries.value.0, summaries.value.1, CrateList(all), PhaseList(all), names,
                     last.value, sortedRustc, sortedBenchmarks))
  }

  /** Sorting keeps a series' commits unique. */
  lemma {:induction false} SortKeepsUniqueCommits(s: seq<TestRun>)
    requires UniqueCommits(s)
    ensures UniqueCommits(SortByDate(s))
  {
    if |s| > 0 {
      var rest := SortByDate(s[1..]);
      SortKeepsUniqueCommits(s[1..]);
      forall j | 0 <= j < |rest|
        ensures rest[j].commit != s[0].commit
      {
        assert rest[j] in multiset(s[1..]);
        var k :| 0 <= k < |s[1..]| && s[1..][k] == rest[j];
        assert s[k + 1] == rest[j];
      }
      InsertKeepsUniqueCommits(s[0], rest);
    }
  }

  /** Inserting a run of a new commit keeps commits unique. */
  lemma {:induction false} InsertKeepsUniqueCommits(x: TestRun, s: seq<TestRun>)
    requires SortedByDate(s) && UniqueCommits(s)
    requires forall j :: 0 <= j < |s| ==> s[j].commit != x.commit
    ensures UniqueCommits(InsertByDate(x, s))
  {
    if |s| > 0 && s[0].date < x.date {
      InsertKeepsUniqueCommits(x, s[1..]);
      var rest := InsertByDate(x, s[1..]);
      forall j | 0 <= j < |rest|
        ensures rest[j].commit != s[0].commit
      {
        assert rest[j] in multiset(s[1..]) + multiset{x};
        if rest[j] != x {
          var k :| 0 <= k < |s[1..]| && s[1..][k] == rest[j];
          assert s[k + 1] == rest[j];
        }
      }
      assert InsertByDate(x, s) == [s[0]] + rest;
    }
  }

  /** Sorting keeps every run of a series of one kind. */
  lemma SortKeepsKind(s: seq<TestRun>, kind: Kind)
    requires AllOfKind(s, kind)
    ensures AllOfKind(SortByDate(s), kind)
  {
    var r := SortByDate(s);
    forall j | 0 <= j < |r|
      ensures r[j].kind == kind
    {
      assert r[j] in multiset(s);
    }
  }

  /** Loading the records and finalising. A rejected record aborts the
      load; with none, the load fails when no record was accepted or when
      some week of a loaded series is thin. After a successful load, each
      series is sorted by date, holds only runs of its kind, has no commit
      twice, and holds exactly the commits of the records accepted into it;
      it is a reordering of the loaded series, and the name sets, the latest
      date and the summaries are those computed from the loaded series. */
  function FromRecords(recs: seq<Record>, startOfWeek: Date -> Date, indexIn: (seq<TestRun>, Date) -> nat)
    : (r: Result<InputData>)
    ensures (exists k :: 0 <= k < |recs| && Rejected(recs[k])) ==>
      r.Err? && (r.error.MissingSeparator? || r.error.UnresolvableDate?)
    ensures r == Err(NoDates) <==>
      && (forall k :: 0 <= k < |recs| ==> !Rejected(recs[k]))
      && AcceptedCommits(recs, true) == {} && AcceptedCommits(recs, false) == {}
    ensures r == Err(DawnOfData) <==>
      var loaded := LoadRecords(recs);
      loaded.Ok? && ThinInput(loaded.value.rustc, loaded.value.benchmarks, startOfWeek, indexIn)
    ensures r.Err? && (r.error.MissingSeparator? || r.error.UnresolvableDate?) ==>
      exists k :: 0 <= k < |recs| && Rejected(recs[k])
    ensures r.Ok? <==>
      var loaded := LoadRecords(recs);
      && loaded.Ok?
      && (AcceptedCommits(recs, true) != {} || AcceptedCommits(recs, false) != {})
      && !ThinInput(loaded.value.rustc, loaded.value.benchmarks, startOfWeek, indexIn)
    ensures r.Ok? ==> Commits(r.value.dataRustc) == AcceptedCommits(recs, true)
    ensures r.Ok? ==> Commits(r.value.dataBenchmarks) == AcceptedCommits(recs, false)
    ensures r.Ok? ==> SortedByDate(r.value.dataRustc) && SortedByDate(r.value.dataBenchmarks)
    ensures r.Ok? ==> UniqueCommits(r.value.dataRustc) && UniqueCommits(r.value.dataBenchmarks)
    ensures r.Ok? ==> AllOfKind(r.value.dataRustc, Rustc) && AllOfKind(r.value.dataBenchmarks, Benchmarks)
    ensures r.Ok? ==> var loaded := LoadRecords(recs).value;
      FinishedFrom(r.value, loaded.rustc, loaded.benchmarks, startOfWeek, indexIn)
  {
    var loaded :- LoadRecords(recs);
    SortKeepsSeries(loaded.rustc, Rustc);
    SortKeepsSeries(loaded.benchmarks, Benchmarks);
    NewInputData(loaded.rustc, loaded.benchmarks, startOfWeek, indexIn)
  }

  /** Sorting a loaded series of one kind keeps its commits, keeps them
      unique and keeps the kind; the series has no commits iff it is empty. */
  lemma SortKeepsSeries(s: seq<TestRun>, kind: Kind)
    requires UniqueCommits(s) && AllOfKind(s, kind)
    ensures Commits(s) == {} <==> |s| == 0
    ensures var sorted := SortByDate(s);
      && Commits(sorted) == Commits(s) && UniqueCommits(sorted) && AllOfKind(sorted, kind)
  {
    EmptyCommits(s);
    CommitsPermutation(s, SortByDate(s));
    SortKeepsUniqueCommits(s);
    SortKeepsKind(s, kind);
  }

  /** A series has no commits iff it is empty. */
  lemma EmptyCommits(runs: seq<TestRun>)
    ensures Commits(runs) == {} <==> |runs| == 0
  {
    if |runs| > 0 {
      assert runs[0].commit in Commits(runs);
    }
  }

  /** Series that are permutations of each other have the same commits. */
  lemma CommitsPermutation(a: seq<TestRun>, b: seq<TestRun>)
    requires multiset(a) == multiset(b)
    ensures Commits(a) == Commits(b)
  {
    forall x | x in Commits(a)
      ensures x in Commits(b)
    {
      var k :| 0 <= k < |a| && a[k].commit == x;
      assert a[k] in multiset(b);
      var j :| 0 <= j < |b| && b[j] == a[k];
    }
    forall x | x in Commits(b)
      ensures x in Commits(a)
    {
      var k :| 0 <= k < |b| && b[k].commit == x;
      assert b[k] in multiset(a);
      var j :| 0 <= j < |a| && a[j] == b[k];
    }
  }

  /** The series of one kind. */
  function ByKind(data: InputData, kind: Kind): seq<TestRun> {
    match kind
    case Benchmarks => data.dataBenchmarks
    case Rustc => data.dataRustc
  }

  /** After a successful load, the series of a kind holds only runs of that
      kind, sorted by date, one per commit, and exactly the commits of the
      records accepted into that series. */
  lemma ByKindOfLoad(recs: seq<Record>, startOfWeek: Date -> Date, indexIn: (seq<TestRun>, Date) -> nat,
                     kind: Kind)
    ensures var r := FromRecords(recs, startOfWeek, indexIn);
      r.Ok? ==>
      var runs := ByKind(r.value, kind);
      && AllOfKind(runs, kind) && SortedByDate(runs) && UniqueCommits(runs)
      && Commits(runs) == AcceptedCommits(recs, kind == Rustc)
  {
  }

  /** The runs from the one nearest `start` to the one nearest `end`,
      inclusive; `None` where the source's slice would panic. */
  function KindedRange(data: InputData, kind: Kind, indexIn: (seq<TestRun>, Date) -> nat, start: Date, end: Date)
    : (r: Option<seq<TestRun>>)
    ensures var runs := ByKind(data, kind);
      r.Some? <==> indexIn(runs, start) <= indexIn(runs, end) + 1 <= |runs|
    ensures var runs := ByKind(data, kind);
      r.Some? ==> |r.value| == indexIn(runs, end) + 1 - indexIn(runs, start)
                  && forall k :: 0 <= k < |r.value| ==> r.value[k] == runs[indexIn(runs, start) + k]
  {
    var runs := ByKind(data, kind);
    var startIdx := indexIn(runs, start);
    var endIdx := indexIn(runs, end) + 1;
    if startIdx <= endIdx <= |runs| then Some(runs[startIdx..endIdx]) else None
  }

  /** The run nearest `day`; `None` where the source's index would panic.
      The start day and the end day of a range are both this lookup. */
  function KindedDay(data: InputData, kind: Kind, indexIn: (seq<TestRun>, Date) -> nat, day: Date)
    : (r: Option<TestRun>)
    ensures r.Some? <==> indexIn(ByKind(data, kind), day) < |ByKind(data, kind)|
    ensures r.Some? ==> r.value in ByKind(data, kind)
    ensures KindedRange(data, kind, indexIn, day, day) == if r.Some? then Some([r.value]) else None
  {
    var runs := ByKind(data, kind);
    var idx := indexIn(runs, day);
    if idx < |runs| then
      assert runs[idx..idx + 1] == [runs[idx]];
      Some(runs[idx])
    else None
  }

  /** A non-empty range runs from the start-day run to the end-day run; on
      a sorted series it is sorted and dated between those two runs. */
  lemma RangeBetweenDays(data: InputData, kind: Kind, indexIn: (seq<TestRun>, Date) -> nat, start: Date, end: Date)
    requires KindedRange(data, kind, indexIn, start, end).Some?
    requires |KindedRange(data, kind, indexIn, start, end).value| > 0
    ensures var r := KindedRange(data, kind, indexIn, start, end).value;
      && KindedDay(data, kind, indexIn, start) == Some(r[0])
      && KindedDay(data, kind, indexIn, end) == Some(r[|r| - 1])
    ensures SortedByDate(ByKind(data, kind)) ==>
      var r := KindedRange(data, kind, indexIn, start, end).value;
      SortedByDate(r) && forall k :: 0 <= k < |r| ==> r[0].date <= r[k].date <= r[|r| - 1].date
  {
  }
}

=== FILE: median.dfy ===
/** The median window: per crate and phase, the median time over the run
    at an index and the (at most two) runs just before it. */
module Median {
  import opened LoadTypes

  /** The reals are non-decreasing. */
  predicate SortedReals(s: seq<real>) {
    forall i, j :: 0 <= i < j < |s| ==> s[i] <= s[j]
  }

  /** Inserts `x` into a sorted sequence. */
  function InsertReal(x: real, s: seq<real>): (r: seq<real>)
    requires SortedReals(s)
    ensures SortedReals(r)
    ensures multiset(r) == multiset(s) + multiset{x}
  {
    if |s| == 0 then [x]
    else if x <= s[0] then
      ConsSortedReal(x, s);
      [x] + s
    else
      var rest := InsertReal(x, s[1..]);
      assert s == [s[0]] + s[1..];
      LowerBoundKept(s[0], x, s[1..], rest);
      ConsSortedReal(s[0], rest);
      [s[0]] + rest
  }

  /** A lower bound of a sequence and of `x` bounds any rearrangement of
      the sequence with `x` added. */
  lemma LowerBoundKept(lo: real, x: real, s: seq<real>, rest: seq<real>)
    requires lo <= x
    requires forall j :: 0 <= j < |s| ==> lo <= s[j]
    requires multiset(rest) == multiset(s) + multiset{x}
    ensures forall j :: 0 <= j < |rest| ==> lo <= rest[j]
  {
    forall j | 0 <= j < |rest|
      ensures lo <= rest[j]
    {
      assert rest[j] in multiset(rest);
      assert rest[j] == x || rest[j] in s;
    }
  }

  /** A value no greater than every value of a sorted sequence can go in
      front. */
  lemma ConsSortedReal(x: real, s: seq<real>)
    requires SortedReals(s)
    requires forall j :: 0 <= j < |s| ==> x <= s[j]
    ensures SortedReals([x] + s)
  {
    var r := [x] + s;
    forall i, j | 0 <= i < j < |r|
      ensures r[i] <= r[j]
    {
      assert r[j] == s[j - 1];
      if i > 0 {
        assert r[i] == s[i - 1];
      }
    }
  }

  /** The values in ascending order. */
  function SortReals(s: seq<real>): (r: seq<real>)
    ensures SortedReals(r)
    ensures multiset(r) == multiset(s)
    ensures |r| == |s|
  {
    if |s| == 0 then []
    else
      assert s == [s[0]] + s[1..];
      InsertReal(s[0], SortReals(s[1..]))
  }

  /** The element in the middle of the sorted values: for an even count,
      the upper of the two middle ones. */
  function MedianOf(values: seq<real>): (m: real)
    requires |values| > 0
    ensures m in values
  {
    var sorted := SortReals(values);
    assert sorted[|values| / 2] in multiset(sorted);
    sorted[|values| / 2]
  }

  /** The smaller of two values. */
  function Min(a: real, b: real): real {
    if a <= b then a else b
  }

  /** The larger of two values. */
  function Max(a: real, b: real): real {
    if a <= b then b else a
  }

  /** A window of one run: the median is its value. */
  lemma MedianOfOne(a: real)
    ensures MedianOf([a]) == a
  {
    assert [a][1..] == [];
  }

  /** A window of two runs: the median is the larger value. */
  lemma MedianOfTwo(a: real, b: real)
    ensures MedianOf([a, b]) == Max(a, b)
  {
    var sorted := SortReals([a, b]);
    SortOfTwo(a, b);
    assert MedianOf([a, b]) == sorted[1] by {
      assert |[a, b]| / 2 == 1;
    }
  }

  /** Inserting into a single value. */
  lemma InsertIntoOne(x: real, y: real)
    ensures InsertReal(x, [y]) == [Min(x, y), Max(x, y)]
  {
    assert [y][1..] == [];
  }

  /** Inserting into an ordered pair: the middle of the result. */
  lemma MiddleAfterInsert(x: real, lo: real, hi: real)
    requires lo <= hi
    ensures |InsertReal(x, [lo, hi])| == 3
    ensures InsertReal(x, [lo, hi])[1] == Max(lo, Min(x, hi))
  {
    var s := [lo, hi];
    assert s[1..] == [hi];
    if x <= lo {
      assert InsertReal(x, s) == [x] + s;
    } else {
      InsertIntoOne(x, hi);
      var t := InsertReal(x, [hi]);
      assert InsertReal(x, s) == [lo] + t;
      assert ([lo] + t)[1] == t[0];
    }
  }

  /** A window of three runs: the median is the middle value. */
  lemma MedianOfThree(a: real, b: real, c: real)
    ensures MedianOf([a, b, c]) == Max(Min(b, c), Min(a, Max(b, c)))
  {
    var sorted := SortReals([a, b, c]);
    SortOfThree(a, b, c);
    assert MedianOf([a, b, c]) == sorted[1] by {
      assert |[a, b, c]| / 2 == 1;
    }
  }

  /** Sorting two values. */
  lemma SortOfTwo(b: real, c: real)
    ensures SortReals([b, c]) == [Min(b, c), Max(b, c)]
  {
    SortCons(c, []);
    assert [c] + [] == [c];
    SortCons(b, [c]);
    assert [b] + [c] == [b, c];
    InsertIntoOne(b, c);
  }

  /** Sorting three values puts the middle one in the middle. */
  lemma SortOfThree(a: real, b: real, c: real)
    ensures |SortReals([a, b, c])| == 3
    ensures SortReals([a, b, c])[1] == Max(Min(b, c), Min(a, Max(b, c)))
  {
    SortThreeInserts(a, b, c);
    MiddleAfterInsert(a, Min(b, c), Max(b, c));
  }

  /** Sorting three values inserts the first into the other two, sorted. */
  lemma SortThreeInserts(a: real, b: real, c: real)
    ensures SortReals([a, b, c]) == InsertReal(a, [Min(b, c), Max(b, c)])
  {
    SortOfTwo(b, c);
    SortCons(a, [b, c]);
    assert [a] + [b, c] == [a, b, c];
  }

  /** Sorting a value followed by more values inserts it into the sorted
      rest. */
  lemma SortCons(x: real, t: seq<real>)
    ensures SortReals([x] + t) == InsertReal(x, SortReals(t))
  {
    assert ([x] + t)[0] == x;
    assert ([x] + t)[1..] == t;
  }

  /** The indices a median window reads: `i`, `i - 1` and `i - 2`, newest
      first, keeping only those that exist in a series of length `n`. */
  function WindowIndices(n: nat, i: nat): (idx: seq<nat>)
    ensures |idx| <= 3
    ensures forall k :: 0 <= k < |idx| ==> InWindow(n, i, idx[k])
    ensures forall j :: InWindow(n, i, j) ==> j in idx
    ensures forall k, l :: 0 <= k < l < |idx| ==> idx[k] > idx[l]
  {
    (if i < n then [i] else [])
    + (if 1 <= i && i - 1 < n then [i - 1] else [])
    + (if 2 <= i && i - 2 < n then [i - 2] else [])
  }

  /** Index `j` of a series of length `n` is read by the window ending at `i`. */
  predicate InWindow(n: nat, i: nat, j: int) {
    0 <= j < n && j <= i <= j + 2
  }

  /** The crate maps of the runs in the window, newest first. */
  function Window(data: seq<TestRun>, i: nat): seq<ByCrate>
  {
    var idx := WindowIndices(|data|, i);
    seq(|idx|, k requires 0 <= k < |idx| => data[idx[k]].byCrate)
  }

  /** The crates of any run in the window. */
  function CrateKeys(w: seq<ByCrate>): (r: set<string>)
    ensures forall c :: c in r <==> exists k :: 0 <= k < |w| && c in w[k]
  {
    if |w| == 0 then {}
    else
      assert forall k :: 1 <= k < |w| ==> w[k] == w[1..][k - 1];
      w[0].Keys + CrateKeys(w[1..])
  }

  /** The phases of crate `c` in any run in the window. */
  function PhaseKeys(w: seq<ByCrate>, c: string): (r: set<string>)
    ensures forall p :: p in r <==> exists k :: 0 <= k < |w| && c in w[k] && p in w[k][c]
  {
    if |w| == 0 then {}
    else
      assert forall k :: 1 <= k < |w| ==> w[k] == w[1..][k - 1];
      (if c in w[0] then w[0][c].Keys else {}) + PhaseKeys(w[1..], c)
  }

  /** The positions, in window order, of the runs of the window that
      report phase `p` of crate `c`: each such run once, and no other. */
  function Reporting(w: seq<ByCrate>, c: string, p: string): (ks: seq<nat>)
    ensures |ks| <= |w|
    ensures forall n :: 0 <= n < |ks| ==> ks[n] < |w| && c in w[ks[n]] && p in w[ks[n]][c]
    ensures forall m, n :: 0 <= m < n < |ks| ==> ks[m] < ks[n]
    ensures forall k :: 0 <= k < |w| && c in w[k] && p in w[k][c] ==> k in ks
  {
    ReportingBelowSpec(w, c, p, |w|);
    ReportingBelow(w, c, p, |w|)
  }

  /** `Reporting` among the first `n` runs of the window. */
  function ReportingBelow(w: seq<ByCrate>, c: string, p: string, n: nat): seq<nat>
    requires n <= |w|
  {
    if n == 0 then []
    else
      var prev := ReportingBelow(w, c, p, n - 1);
      if c in w[n - 1] && p in w[n - 1][c] then prev + [n - 1] else prev
  }

  /** `ReportingBelow` lists each reporting run among the first `n` once,
      in increasing order, and no other run. */
  lemma {:induction false} ReportingBelowSpec(w: seq<ByCrate>, c: string, p: string, n: nat)
    requires n <= |w|
    ensures var ks := ReportingBelow(w, c, p, n);
      && |ks| <= n
      && (forall m :: 0 <= m < |ks| ==> ks[m] < n && c in w[ks[m]] && p in w[ks[m]][c])
      && (forall l, m :: 0 <= l < m < |ks| ==> ks[l] < ks[m])
      && (forall k :: 0 <= k < n && c in w[k] && p in w[k][c] ==> k in ks)
  {
    if n > 0 {
      ReportingBelowSpec(w, c, p, n - 1);
    }
  }

  /** The times of phase `p` of crate `c`, one per run that reports it, in
      window order. */
  function PhaseValues(w: seq<ByCrate>, c: string, p: string): (r: seq<real>)
    ensures |r| == |Reporting(w, c, p)| <= |w|
    ensures forall n :: 0 <= n < |r| ==> r[n] == w[Reporting(w, c, p)[n]][c][p].time
    ensures |r| > 0 <==> exists k :: 0 <= k < |w| && c in w[k] && p in w[k][c]
    ensures forall v :: v in r ==> exists k :: 0 <= k < |w| && c in w[k] && p in w[k][c] && w[k][c][p].time == v
  {
    var ks := Reporting(w, c, p);
    var r := seq(|ks|, n requires 0 <= n < |ks| => w[ks[n]][c][p].time);
    assert forall v :: v in r ==> exists n :: 0 <= n < |ks| && r[n] == v;
    assert (exists k :: 0 <= k < |w| && c in w[k] && p in w[k][c]) ==> |ks| > 0 by {
      if exists k :: 0 <= k < |w| && c in w[k] && p in w[k][c] {
        var k :| 0 <= k < |w| && c in w[k] && p in w[k][c];
        assert k in ks;
      }
    }
    assert |ks| > 0 ==> ks[0] < |w| && c in w[ks[0]] && p in w[ks[0]][c];
    r
  }

  /** The median window ending at index `i`, labelled with `date`. Every
      crate and phase of a run in the window appears, and its value is
      the median of that phase's times across the window. */
  function NewMedianRun(data: seq<TestRun>, i: nat, date: Date): (r: MedianRun)
    ensures r.date == date
    ensures forall c :: c in r.byCrate <==> exists j :: InWindow(|data|, i, j) && c in data[j].byCrate
    ensures forall c, p :: c in r.byCrate ==>
      (p in r.byCrate[c] <==> exists j :: InWindow(|data|, i, j) && c in data[j].byCrate && p in data[j].byCrate[c])
    ensures forall c, p :: c in r.byCrate && p in r.byCrate[c] ==>
      exists j :: InWindow(|data|, i, j) && c in data[j].byCrate && p in data[j].byCrate[c]
               && r.byCrate[c][p] == data[j].byCrate[c][p].time
  {
    var r := MedianRun(date, MedianMap(Window(data, i)));
    forall c
      ensures c in r.byCrate <==> exists j :: InWindow(|data|, i, j) && c in data[j].byCrate
    {
      WindowCrates(data, i, c);
    }
    forall c, p | c in r.byCrate
      ensures p in r.byCrate[c] <==> exists j :: InWindow(|data|, i, j) && c in data[j].byCrate && p in data[j].byCrate[c]
    {
      WindowPhases(data, i, c, p);
    }
    forall c, p | c in r.byCrate && p in r.byCrate[c]
      ensures exists j :: InWindow(|data|, i, j) && c in data[j].byCrate && p in data[j].byCrate[c]
                       && r.byCrate[c][p] == data[j].byCrate[c][p].time
    {
      var w := Window(data, i);
      var k: nat :| k < |w| && c in w[k] && p in w[k][c];
      MedianMapValue(w, c, p, k);
      WindowValue(data, i, c, p, r.byCrate[c][p]);
    }
    r
  }

  /** Per crate and phase of any run in the window, the median of the
      collected times. */
  function MedianMap(w: seq<ByCrate>): (r: map<string, map<string, real>>)
    ensures r.Keys == CrateKeys(w)
    ensures forall c :: c in r ==> r[c].Keys == PhaseKeys(w, c)
  {
    map c | c in CrateKeys(w) ::
      map p | p in PhaseKeys(w, c) :: MedianOf(PhaseValues(w, c, p))
  }

  /** A crate and phase that some run of the window reports is in the
      median map, and its value is the median of a non-empty collection,
      so it is one of the collected times. */
  lemma MedianMapValue(w: seq<ByCrate>, c: string, p: string, k: nat)
    requires k < |w| && c in w[k] && p in w[k][c]
    ensures c in MedianMap(w) && p in MedianMap(w)[c]
    ensures |PhaseValues(w, c, p)| > 0
    ensures MedianMap(w)[c][p] == MedianOf(PhaseValues(w, c, p))
    ensures exists l :: 0 <= l < |w| && c in w[l] && p in w[l][c] && w[l][c][p].time == MedianMap(w)[c][p]
  {
  }

  /** A crate is in some run of the window iff it is in the series at
      some index the window reads. */
  lemma WindowCrates(data: seq<TestRun>, i: nat, c: string)
    ensures (exists k :: 0 <= k < |Window(data, i)| && c in Window(data, i)[k])
        <==> (exists j :: InWindow(|data|, i, j) && c in data[j].byCrate)
  {
    var w := Window(data, i);
    var idx := WindowIndices(|data|, i);
    if exists j :: InWindow(|data|, i, j) && c in data[j].byCrate {
      var j :| InWindow(|data|, i, j) && c in data[j].byCrate;
      var k :| 0 <= k < |idx| && idx[k] == j;
      assert c in w[k];
    }
    if exists k :: 0 <= k < |w| && c in w[k] {
      var k :| 0 <= k < |w| && c in w[k];
      assert InWindow(|data|, i, idx[k]);
    }
  }

  /** The same for a phase of a crate. */
  lemma WindowPhases(data: seq<TestRun>, i: nat, c: string, p: string)
    ensures (exists k :: 0 <= k < |Window(data, i)| && c in Window(data, i)[k] && p in Window(data, i)[k][c])
        <==> (exists j :: InWindow(|data|, i, j) && c in data[j].byCrate && p in data[j].byCrate[c])
  {
    var w := Window(data, i);
    var idx := WindowIndices(|data|, i);
    if exists j :: InWindow(|data|, i, j) && c in data[j].byCrate && p in data[j].byCrate[c] {
      var j :| InWindow(|data|, i, j) && c in data[j].byCrate && p in data[j].byCrate[c];
      var k :| 0 <= k < |idx| && idx[k] == j;
      assert c in w[k] && p in w[k][c];
    }
    if exists k :: 0 <= k < |w| && c in w[k] && p in w[k][c] {
      var k :| 0 <= k < |w| && c in w[k] && p in w[k][c];
      assert InWindow(|data|, i, idx[k]);
    }
  }

  /** A value collected from the window is a time of the series at some
      index the window reads. */
  lemma WindowValue(data: seq<TestRun>, i: nat, c: string, p: string, v: real)
    requires exists k :: 0 <= k < |Window(data, i)| && c in Window(data, i)[k] && p in Window(data, i)[k][c]
                      && Window(data, i)[k][c][p].time == v
    ensures exists j :: InWindow(|data|, i, j) && c in data[j].byCrate && p in data[j].byCrate[c]
                      && data[j].byCrate[c][p].time == v
  {
    var w: seq<ByCrate> := Window(data, i);
    var idx := WindowIndices(|data|, i);
    var k: int :| 0 <= k < |w| && c in w[k] && p in w[k][c] && w[k][c][p].time == v;
    assert InWindow(|data|, i, idx[k]);
  }

  /** A crate and phase that a run read by the window reports is in the
      median window, and its value is the median of the times collected
      for it, of which there are one to three: the collection is never
      empty. */
  lemma MedianRunValue(data: seq<TestRun>, i: nat, date: Date, c: string, p: string, j: nat)
    requires InWindow(|data|, i, j) && c in data[j].byCrate && p in data[j].byCrate[c]
    ensures c in NewMedianRun(data, i, date).byCrate
    ensures p in NewMedianRun(data, i, date).byCrate[c]
    ensures 1 <= |PhaseValues(Window(data, i), c, p)| <= 3
    ensures NewMedianRun(data, i, date).byCrate[c][p] == MedianOf(PhaseValues(Window(data, i), c, p))
  {
    var w := Window(data, i);
    var idx := WindowIndices(|data|, i);
    var k :| 0 <= k < |idx| && idx[k] == j;
    assert w[k] == data[j].byCrate;
    MedianMapValue(w, c, p, k);
  }

  /** The value of the median window for a crate and phase that a run of
      the window reports: the collected times are those of the reporting
      runs (`PhaseValues`), one to three of them; with one it is that time,
      with two the larger, with three the middle one. Runs of the window
      that lack the phase play no part. */
  lemma WindowMedian(data: seq<TestRun>, i: nat, date: Date, c: string, p: string, j: nat)
    requires InWindow(|data|, i, j) && c in data[j].byCrate && p in data[j].byCrate[c]
    ensures c in NewMedianRun(data, i, date).byCrate && p in NewMedianRun(data, i, date).byCrate[c]
    ensures var t, v := PhaseValues(Window(data, i), c, p), NewMedianRun(data, i, date).byCrate[c][p];
      && 1 <= |t| <= 3
      && (|t| == 1 ==> v == t[0])
      && (|t| == 2 ==> v == Max(t[0], t[1]))
      && (|t| == 3 ==> v == Max(Min(t[1], t[2]), Min(t[0], Max(t[1], t[2]))))
  {
    MedianRunValue(data, i, date, c, p, j);
    MedianOfFew(PhaseValues(Window(data, i), c, p));
  }

  /** The median of one to three values: the value, the larger, the middle. */
  lemma MedianOfFew(t: seq<real>)
    requires 1 <= |t| <= 3
    ensures |t| == 1 ==> MedianOf(t) == t[0]
    ensures |t| == 2 ==> MedianOf(t) == Max(t[0], t[1])
    ensures |t| == 3 ==> MedianOf(t) == Max(Min(t[1], t[2]), Min(t[0], Max(t[1], t[2])))
  {
    if |t| == 1 {
      assert t == [t[0]];
      MedianOfOne(t[0]);
    } else if |t| == 2 {
      assert t == [t[0], t[1]];
      MedianOfTwo(t[0], t[1]);
    } else {
      assert t == [t[0], t[1], t[2]];
      MedianOfThree(t[0], t[1], t[2]);
    }
  }

  /** The median window reads nothing but the runs at `i`, `i - 1` and
      `i - 2`: series that agree there give the same window. */
  lemma NewMedianRunLocal(data: seq<TestRun>, other: seq<TestRun>, i: nat, date: Date)
    requires |data| == |other|
    requires forall j :: InWindow(|data|, i, j) ==> data[j].byCrate == other[j].byCrate
    ensures NewMedianRun(data, i, date) == NewMedianRun(other, i, date)
  {
    assert Window(data, i) == Window(other, i);
  }

  /** Times 10, 20, 30 in the last three runs give 20; near the start of
      a series, 10 then 20 give 20, the upper of the two. */
  lemma MedianExamples()
    ensures MedianOf([30.0, 20.0, 10.0]) == 20.0
    ensures MedianOf([20.0, 10.0]) == 20.0
  {
    MedianOfThree(30.0, 20.0, 10.0);
    MedianOfTwo(20.0, 10.0);
  }
}

=== FILE: merge.dfy ===
/** Folding already-parsed input records into the two run series, merging a
    record into the run of the same commit instead of adding a duplicate. */
module Merge {
  import opened LoadTypes
  import opened Filename
  import opened Timings

  /** The position of the first run with the given commit. */
  function FindCommit(runs: seq<TestRun>, commit: string): (r: Option<nat>)
    ensures r.Some? ==> r.value < |runs| && runs[r.value].commit == commit
    ensures r.Some? ==> forall j :: 0 <= j < r.value ==> runs[j].commit != commit
    ensures r.None? ==> commit !in Commits(runs)
  {
    if |runs| == 0 then None
    else if runs[0].commit == commit then Some(0)
    else
      match FindCommit(runs[1..], commit)
      case None =>
        assert forall j :: 1 <= j < |runs| ==> runs[j] == runs[1..][j - 1];
        None
      case Some(k) => Some(k + 1)
  }

  /** The commits of a series. */
  function Commits(runs: seq<TestRun>): set<string> {
    set j | 0 <= j < |runs| :: runs[j].commit
  }

  /** No commit occurs twice in a series. */
  predicate UniqueCommits(runs: seq<TestRun>) {
    forall i, j :: 0 <= i < j < |runs| ==> runs[i].commit != runs[j].commit
  }

  /** Every run of a series has the given kind. */
  predicate AllOfKind(runs: seq<TestRun>, kind: Kind) {
    forall i :: 0 <= i < |runs| ==> runs[i].kind == kind
  }

  /** The invariant of the loaded series: commits are unique within each
      series, and each series holds only runs of its own kind. */
  predicate WellFormed(l: Loaded) {
    && UniqueCommits(l.rustc) && AllOfKind(l.rustc, Rustc)
    && UniqueCommits(l.benchmarks) && AllOfKind(l.benchmarks, Benchmarks)
  }

  /** `merged` holds every crate of `incoming`, with its timings, and every
      crate of `prior` that `incoming` does not hold, with its prior timings. */
  predicate Overlaid(prior: ByCrate, incoming: ByCrate, merged: ByCrate) {
    && merged.Keys == prior.Keys + incoming.Keys
    && (forall c :: c in incoming ==> merged[c] == incoming[c])
    && (forall c :: c in prior && c !in incoming ==> merged[c] == prior[c])
  }

  /** A new run for a record with the given test name. */
  function NewTestRun(date: Date, commit: string, entries: seq<Entry>, testName: string): (r: TestRun)
    ensures r.kind == Rustc <==> testName == RUSTC
    ensures r.date == date && r.commit == commit
    ensures r.byCrate == MakeTimes(entries, testName == RUSTC)
  {
    TestRun(date, commit, KindOf(testName), MakeTimes(entries, testName == RUSTC))
  }

  /** Adds a record to one series: into the run of the same commit when
      there is one, overwriting that run's colliding crates, and as a new
      run at the end otherwise. */
  function MergeInto(runs: seq<TestRun>, date: Date, commit: string, entries: seq<Entry>, testName: string)
    : (r: seq<TestRun>)
    ensures Commits(r) == Commits(runs) + {commit}
    ensures UniqueCommits(runs) ==> UniqueCommits(r)
    ensures AllOfKind(runs, KindOf(testName)) ==> AllOfKind(r, KindOf(testName))
    ensures commit !in Commits(runs) ==>
      |r| == |runs| + 1 && r[..|runs|] == runs && r[|runs|] == NewTestRun(date, commit, entries, testName)
    ensures commit in Commits(runs) ==>
      var i := FindCommit(runs, commit).value;
      && |r| == |runs|
      && (forall j :: 0 <= j < |runs| && j != i ==> r[j] == runs[j])
      && r[i].date == runs[i].date && r[i].commit == commit && r[i].kind == runs[i].kind
      && Overlaid(runs[i].byCrate, MakeTimes(entries, testName == RUSTC), r[i].byCrate)
  {
    var incoming := MakeTimes(entries, testName == RUSTC);
    match FindCommit(runs, commit)
    case Some(i) =>
      OverlayRun(runs, i, incoming);
      runs[i := runs[i].(byCrate := runs[i].byCrate + incoming)]
    case None =>
      var run := NewTestRun(date, commit, entries, testName);
      AppendRun(runs, run);
      runs + [run]
  }

  /** Overlaying crates onto the run at `i` changes no commit and no kind. */
  lemma OverlayRun(runs: seq<TestRun>, i: nat, incoming: ByCrate)
    requires i < |runs|
    ensures var r := runs[i := runs[i].(byCrate := runs[i].byCrate + incoming)];
      && Commits(r) == Commits(runs)
      && (UniqueCommits(runs) ==> UniqueCommits(r))
      && (forall kind :: AllOfKind(runs, kind) ==> AllOfKind(r, kind))
      && Overlaid(runs[i].byCrate, incoming, r[i].byCrate)
  {
    var r := runs[i := runs[i].(byCrate := runs[i].byCrate + incoming)];
    assert forall j :: 0 <= j < |runs| ==> r[j].commit == runs[j].commit && r[j].kind == runs[j].kind;
  }

  /** Appending a run adds its commit; it keeps commits unique when the
      commit is new, and keeps the series of one kind when the run is. */
  lemma AppendRun(runs: seq<TestRun>, run: TestRun)
    ensures Commits(runs + [run]) == Commits(runs) + {run.commit}
    ensures UniqueCommits(runs) && run.commit !in Commits(runs) ==> UniqueCommits(runs + [run])
    ensures forall kind :: AllOfKind(runs, kind) && run.kind == kind ==> AllOfKind(runs + [run], kind)
    ensures (runs + [run])[..|runs|] == runs
  {
    var r := runs + [run];
    assert forall j :: 0 <= j < |runs| ==> r[j] == runs[j];
    assert r[|runs|] == run;
  }

  /** A record with no timing entries is skipped. */
  predicate Skipped(rec: Record) {
    |rec.entries| == 0
  }

  /** A record that aborts the load: it has entries, but its file name has
      no test name or no date could be found for it. */
  predicate Rejected(rec: Record) {
    !Skipped(rec) && (NoSeparator(rec.filename) || rec.date.None?)
  }

  /** A record that lands in the bootstrap series. */
  predicate IsRustcRecord(rec: Record) {
    TestName(rec.filename) == Some(RUSTC)
  }

  /** Folds one record into the series. */
  function AddRecord(l: Loaded, rec: Record): (r: Result<Loaded>)
    ensures r.Err? <==> Rejected(rec)
    ensures r.Err? ==> r.error == (if NoSeparator(rec.filename) then MissingSeparator(rec.filename)
                                   else UnresolvableDate(rec.filename))
    ensures r.Ok? && Skipped(rec) ==> r.value == l
    ensures r.Ok? && WellFormed(l) ==> WellFormed(r.value)
    ensures r.Ok? && !Skipped(rec) && IsRustcRecord(rec) ==>
      r.value.benchmarks == l.benchmarks && Commits(r.value.rustc) == Commits(l.rustc) + {rec.commit}
    ensures r.Ok? && !Skipped(rec) && !IsRustcRecord(rec) ==>
      r.value.rustc == l.rustc && Commits(r.value.benchmarks) == Commits(l.benchmarks) + {rec.commit}
    ensures r.Ok? && !Skipped(rec) && IsRustcRecord(rec) ==>
      r.value.rustc == MergeInto(l.rustc, rec.date.value, rec.commit, rec.entries, RUSTC)
    ensures r.Ok? && !Skipped(rec) && !IsRustcRecord(rec) ==>
      r.value.benchmarks == MergeInto(l.benchmarks, rec.date.value, rec.commit, rec.entries, TestName(rec.filename).value)
  {
    if Skipped(rec) then Ok(l)
    else
      match TestName(rec.filename)
      case None => Err(MissingSeparator(rec.filename))
      case Some(testName) =>
        match rec.date
        case None => Err(UnresolvableDate(rec.filename))
        case Some(date) =>
          if testName == RUSTC then
            Ok(Loaded(MergeInto(l.rustc, date, rec.commit, rec.entries, testName), l.benchmarks))
          else
            Ok(Loaded(l.rustc, MergeInto(l.benchmarks, date, rec.commit, rec.entries, testName)))
  }

  /** The commits of the non-skipped records that land in the
      bootstrap series (`rustc`) or in the benchmark series (`!rustc`). */
  function AcceptedCommits(recs: seq<Record>, rustc: bool): set<string> {
    set k | 0 <= k < |recs| && !Skipped(recs[k]) && IsRustcRecord(recs[k]) == rustc :: recs[k].commit
  }

  /** `AcceptedCommits` over a prefix, then the last record. */
  lemma AcceptedCommitsSnoc(recs: seq<Record>, rustc: bool)
    requires |recs| > 0
    ensures var last := recs[|recs| - 1];
            AcceptedCommits(recs, rustc) ==
              AcceptedCommits(recs[..|recs| - 1], rustc)
              + (if !Skipped(last) && IsRustcRecord(last) == rustc then {last.commit} else {})
  {
    var init := recs[..|recs| - 1];
    assert forall k :: 0 <= k < |init| ==> init[k] == recs[k];
  }

  /** The load fold over all records, in order. */
  function LoadRecords(recs: seq<Record>): (r: Result<Loaded>)
    ensures r.Err? <==> exists k :: 0 <= k < |recs| && Rejected(recs[k])
    ensures r.Err? ==> r.error.MissingSeparator? || r.error.UnresolvableDate?
    ensures r.Ok? ==> WellFormed(r.value)
    ensures r.Ok? ==> Commits(r.value.rustc) == AcceptedCommits(recs, true)
    ensures r.Ok? ==> Commits(r.value.benchmarks) == AcceptedCommits(recs, false)
  {
    if |recs| == 0 then Ok(Loaded([], []))
    else
      var init := recs[..|recs| - 1];
      var last := recs[|recs| - 1];
      assert forall k :: 0 <= k < |init| ==> init[k] == recs[k];
      assert (exists k :: 0 <= k < |recs| && Rejected(recs[k])) <==>
             (exists k :: 0 <= k < |init| && Rejected(init[k])) || Rejected(last);
      AcceptedCommitsSnoc(recs, true);
      AcceptedCommitsSnoc(recs, false);
      var prev := LoadRecords(init);
      if prev.Err? then Err(prev.error) else AddRecord(prev.value, last)
  }
}

=== FILE: sorting.dfy ===
/** Sorting a series by date alone, as the runs' ordering compares nothing
    but the date; the sort is stable, so runs of equal date keep their
    load order. */
module DateSort {
  import opened LoadTypes

  /** The series is non-decreasing by date. */
  predicate SortedByDate(s: seq<TestRun>) {
    forall i, j :: 0 <= i < j < |s| ==> s[i].date <= s[j].date
  }

  /** The runs of `s` dated `d`, in their order in `s`. */
  function WithDate(s: seq<TestRun>, d: Date): (r: seq<TestRun>)
    ensures |r| <= |s|
  {
    if |s| == 0 then []
    else (if s[0].date == d then [s[0]] else []) + WithDate(s[1..], d)
  }

  /** Inserts `x` into a sorted series, before the first run not dated
      earlier than it. */
  function InsertByDate(x: TestRun, s: seq<TestRun>): (r: seq<TestRun>)
    requires SortedByDate(s)
    ensures SortedByDate(r)
    ensures multiset(r) == multiset(s) + multiset{x}
  {
    if |s| == 0 then [x]
    else if x.date <= s[0].date then
      ConsSorted(x, s);
      [x] + s
    else
      var rest := InsertByDate(x, s[1..]);
      assert s == [s[0]] + s[1..];
      forall j | 0 <= j < |rest|
        ensures s[0].date <= rest[j].date
      {
        assert rest[j] in multiset(rest);
        assert rest[j] == x || rest[j] in s[1..];
      }
      ConsSorted(s[0], rest);
      [s[0]] + rest
  }

  /** A run no later than every run of a sorted series can go in front. */
  lemma ConsSorted(x: TestRun, s: seq<TestRun>)
    requires SortedByDate(s)
    requires forall j :: 0 <= j < |s| ==> x.date <= s[j].date
    ensures SortedByDate([x] + s)
  {
    var r := [x] + s;
    forall i, j | 0 <= i < j < |r|
      ensures r[i].date <= r[j].date
    {
      assert r[j] == s[j - 1];
      if i > 0 {
        assert r[i] == s[i - 1];
      }
    }
  }

  /** The series sorted by date. */
  function SortByDate(s: seq<TestRun>): (r: seq<TestRun>)
    ensures SortedByDate(r)
    ensures multiset(r) == multiset(s)
    ensures |r| == |s|
  {
    if |s| == 0 then []
    else
      assert s == [s[0]] + s[1..];
      InsertByDate(s[0], SortByDate(s[1..]))
  }

  /** Filtering a run followed by a series. */
  lemma WithDateCons(y: TestRun, t: seq<TestRun>, d: Date)
    ensures WithDate([y] + t, d) == (if y.date == d then [y] else []) + WithDate(t, d)
  {
    assert ([y] + t)[0] == y;
    assert ([y] + t)[1..] == t;
  }

  /** Inserting `x` places it ahead of every run of its date already in
      the series, and leaves the order of the other runs alone. */
  lemma {:induction false} InsertByDateStable(x: TestRun, s: seq<TestRun>, d: Date)
    requires SortedByDate(s)
    ensures WithDate(InsertByDate(x, s), d) == (if x.date == d then [x] else []) + WithDate(s, d)
  {
    if |s| == 0 {
      assert InsertByDate(x, s) == [x] + [];
      WithDateCons(x, [], d);
    } else if x.date <= s[0].date {
      assert InsertByDate(x, s) == [x] + s;
      WithDateCons(x, s, d);
    } else {
      var rest := InsertByDate(x, s[1..]);
      assert InsertByDate(x, s) == [s[0]] + rest;
      assert s == [s[0]] + s[1..];
      var tail := WithDate(s[1..], d);
      InsertByDateStable(x, s[1..], d);
      WithDateCons(s[0], rest, d);
      WithDateCons(s[0], s[1..], d);
      if s[0].date == d {
        assert x.date != d;
        assert WithDate(rest, d) == tail;
      } else {
        assert WithDate(s, d) == tail;
      }
    }
  }

  /** The sort is stable: for every date, the runs of that date appear in
      the sorted series in the same order as in the input. */
  lemma {:induction false} SortByDateStable(s: seq<TestRun>, d: Date)
    ensures WithDate(SortByDate(s), d) == WithDate(s, d)
  {
    if |s| > 0 {
      SortByDateStable(s[1..], d);
      InsertByDateStable(s[0], SortByDate(s[1..]), d);
    }
  }
}

=== FILE: summary.dfy ===
/** The trend summary of one series: twelve weekly comparisons of median
    windows, one long comparison, and every benchmark present in every week. */
module Summaries {
  import opened LoadTypes
  import opened Median

  /** The percent change from `previous` to `current`. */
  function PercentChange(previous: real, current: real): (r: real)
    requires previous != 0.0
    ensures ApplyPercent(previous, r) == current
    ensures previous > 0.0 ==> (r > 0.0 <==> current > previous) && (r == 0.0 <==> current == previous)
  {
    var r := ((current - previous) / previous) * 100.0;
    assert previous * (r / 100.0) == current - previous;
    r
  }

  /** The value reached from `previous` by a change of `percent` percent. */
  function ApplyPercent(previous: real, percent: real): real {
    previous + previous * (percent / 100.0)
  }

  /** Compares two median windows: a crate appears when both windows have
      it, and a phase of it when both have it with a positive median; its
      value is the percent change from the first window to the second. */
  function CompareWeeks(week0: MedianRun, week1: MedianRun): (r: MedianRun)
    ensures r.date == week1.date
    ensures r.byCrate.Keys == week0.byCrate.Keys * week1.byCrate.Keys
    ensures forall c, p :: c in r.byCrate ==>
      (p in r.byCrate[c] <==>
         p in week0.byCrate[c] && p in week1.byCrate[c]
         && week0.byCrate[c][p] > 0.0 && week1.byCrate[c][p] > 0.0)
    ensures forall c, p :: c in r.byCrate && p in r.byCrate[c] ==>
      ApplyPercent(week0.byCrate[c][p], r.byCrate[c][p]) == week1.byCrate[c][p]
  {
    var crates := map c | c in week0.byCrate && c in week1.byCrate ::
      map p | p in week0.byCrate[c] && p in week1.byCrate[c]
              && week0.byCrate[c][p] > 0.0 && week1.byCrate[c][p] > 0.0 ::
        PercentChange(week0.byCrate[c][p], week1.byCrate[c][p]);
    MedianRun(week1.date, crates)
  }

  /** Adds every missing name of `names` to the week with an empty phase
      map, so that every week reports the same benchmark keys. */
  function Backfill(week: MedianRun, names: set<string>): (r: MedianRun)
    ensures r.date == week.date
    ensures r.byCrate.Keys == week.byCrate.Keys + names
    ensures forall c :: c in week.byCrate ==> r.byCrate[c] == week.byCrate[c]
    ensures forall c :: c in names && c !in week.byCrate ==> r.byCrate[c] == map[]
  {
    MedianRun(week.date, map c | c in week.byCrate.Keys + names ::
      if c in week.byCrate then week.byCrate[c] else map[])
  }

  /** The start of the `i`-th week back from the week starting at `weekStart`. */
  function WeekStart(weekStart: Date, i: nat): Date {
    weekStart - i * WEEK
  }

  /** The indices of the two median windows of one week. When the week's
      start and end resolve to the same run, the start window steps back
      one run; at the very first run there is none to step back to. */
  function WeekWindows(indexIn: Date -> nat, start: Date, end: Date): (r: Result<(nat, nat)>)
    ensures r.Err? <==> indexIn(start) == 0 && indexIn(end) == 0
    ensures r.Err? ==> r.error == DawnOfData
    ensures r.Ok? ==> r.value.1 == indexIn(end) && r.value.0 != r.value.1
    ensures r.Ok? ==> r.value.0 <= indexIn(start) <= r.value.0 + 1
    ensures r.Ok? ==> (r.value.0 == indexIn(start) <==> indexIn(start) != indexIn(end))
  {
    var startIdx := indexIn(start);
    var endIdx := indexIn(end);
    if startIdx == endIdx then
      if startIdx == 0 then Err(DawnOfData) else Ok((startIdx - 1, endIdx))
    else Ok((startIdx, endIdx))
  }

  /** The comparison for the `i`-th week back: the median window at the
      week's start against the one at its end. */
  function WeekComparison(data: seq<TestRun>, indexIn: Date -> nat, weekStart: Date, i: nat)
    : (r: Result<MedianRun>)
    ensures r.Err? <==> Thin(indexIn, weekStart, i)
    ensures r.Err? ==> r.error == DawnOfData
    ensures r.Ok? ==> r.value.date == WeekStart(weekStart, i) + WEEK
    ensures r.Ok? ==>
      var start := WeekStart(weekStart, i);
      var windows := WeekWindows(indexIn, start, start + WEEK);
      && windows.Ok?
      && r.value == CompareWeeks(NewMedianRun(data, windows.value.0, start),
                                 NewMedianRun(data, indexIn(start + WEEK), start + WEEK))
  {
    var start := WeekStart(weekStart, i);
    var end := start + WEEK;
    var (startIdx, endIdx) :- WeekWindows(indexIn, start, end);
    Ok(CompareWeeks(NewMedianRun(data, startIdx, start), NewMedianRun(data, endIdx, end)))
  }

  /** The `i`-th week back starts and ends on the first run of the series. */
  predicate Thin(indexIn: Date -> nat, weekStart: Date, i: nat) {
    indexIn(WeekStart(weekStart, i)) == 0 && indexIn(WeekStart(weekStart, i) + WEEK) == 0
  }

  /** Some week of the summary starting at `weekStart` is thin. */
  predicate HasThinWeek(indexIn: Date -> nat, weekStart: Date) {
    exists i :: 0 <= i < WEEKS_IN_SUMMARY && Thin(indexIn, weekStart, i)
  }

  /** The comparisons for the weeks `0 .. n - 1`, in that order. */
  function WeeklyComparisons(data: seq<TestRun>, indexIn: Date -> nat, weekStart: Date, n: nat)
    : (r: Result<seq<MedianRun>>)
    ensures r.Err? <==> exists i :: 0 <= i < n && Thin(indexIn, weekStart, i)
    ensures r.Err? ==> r.error == DawnOfData
    ensures r.Ok? ==> |r.value| == n
    ensures r.Ok? ==> forall i :: 0 <= i < n ==> WeekComparison(data, indexIn, weekStart, i) == Ok(r.value[i])
  {
    if n == 0 then Ok([])
    else
      var prev := WeeklyComparisons(data, indexIn, weekStart, n - 1);
      var week := WeekComparison(data, indexIn, weekStart, n - 1);
      if prev.Err? then Err(prev.error)
      else if week.Err? then Err(week.error)
      else Ok(prev.value + [week.value])
  }

  /** The summary of a sorted series, given its last date, the start of
      the week of that date, the benchmark names every week must report,
      and the series' date index. */
  function NewSummary(data: seq<TestRun>, lastDate: Date, weekStart: Date, benchmarks: set<string>,
                      indexIn: Date -> nat): (r: Result<Summary>)
    ensures r.Err? <==> HasThinWeek(indexIn, weekStart)
    ensures r.Err? ==> r.error == DawnOfData
    ensures r.Ok? ==> |r.value.weeks| == WEEKS_IN_SUMMARY
    ensures r.Ok? ==> r.value.total.date == lastDate + WEEK
    ensures r.Ok? ==>
      var totalStart, totalEnd := weekStart - 13 * WEEK, lastDate + WEEK;
      r.value.total == CompareWeeks(NewMedianRun(data, indexIn(totalStart), totalStart),
                                    NewMedianRun(data, indexIn(totalEnd), totalEnd))
    ensures r.Ok? ==> forall i :: 0 <= i < WEEKS_IN_SUMMARY ==>
      var compared := WeekComparison(data, indexIn, weekStart, i);
      && compared.Ok?
      && r.value.weeks[i].date == WeekStart(weekStart, i) + WEEK
      && r.value.weeks[i].byCrate.Keys == compared.value.byCrate.Keys + benchmarks
      && (forall c :: c in compared.value.byCrate ==> r.value.weeks[i].byCrate[c] == compared.value.byCrate[c])
      && (forall c :: c in benchmarks && c !in compared.value.byCrate ==> r.value.weeks[i].byCrate[c] == map[])
  {
    var weeks :- WeeklyComparisons(data, indexIn, weekStart, WEEKS_IN_SUMMARY);
    var totalStart := weekStart - 13 * WEEK;
    var totalEnd := lastDate + WEEK;
    var total := CompareWeeks(NewMedianRun(data, indexIn(totalStart), totalStart),
                              NewMedianRun(data, indexIn(totalEnd), totalEnd));
    Ok(Summary(total, seq(|weeks|, i requires 0 <= i < |weeks| => Backfill(weeks[i], benchmarks))))
  }

  /** Medians lag a steady climb: over the first three runs, if a
      phase's times never fall, the window at the second run and the window
      at the third have the same median (the middle time). Comparing them
      reports no change at all, however much the times grew. */
  lemma MedianLagsGrowth(data: seq<TestRun>, c: string, p: string, d1: Date, d2: Date)
    requires |data| >= 3
    requires Reports(data[0], c, p) && Reports(data[1], c, p) && Reports(data[2], c, p)
    requires 0.0 < data[0].byCrate[c][p].time <= data[1].byCrate[c][p].time <= data[2].byCrate[c][p].time
    ensures var w := CompareWeeks(NewMedianRun(data, 1, d1), NewMedianRun(data, 2, d2));
      c in w.byCrate && p in w.byCrate[c] && w.byCrate[c][p] == 0.0
  {
    var t1 := data[1].byCrate[c][p].time;
    ClimbAtSecond(data, c, p, d1);
    ClimbAtThird(data, c, p, d2);
    NoChange(NewMedianRun(data, 1, d1), NewMedianRun(data, 2, d2), c, p, t1);
  }

  /** The run reports phase `p` of crate `c`. */
  predicate Reports(run: TestRun, c: string, p: string) {
    c in run.byCrate && p in run.byCrate[c]
  }

  /** The window holds value `v` for phase `p` of crate `c`. */
  predicate Holds(m: MedianRun, c: string, p: string, v: real) {
    c in m.byCrate && p in m.byCrate[c] && m.byCrate[c][p] == v
  }

  /** Two windows with the same positive value for a phase compare as no
      change for it. */
  lemma NoChange(week0: MedianRun, week1: MedianRun, c: string, p: string, v: real)
    requires Holds(week0, c, p, v) && Holds(week1, c, p, v) && v > 0.0
    ensures var w := CompareWeeks(week0, week1);
      c in w.byCrate && p in w.byCrate[c] && w.byCrate[c][p] == 0.0
  {
    var w := CompareWeeks(week0, week1);
    assert w.byCrate[c][p] == PercentChange(v, v);
  }

  /** On a climb, the window at the second run holds the second time. */
  lemma ClimbAtSecond(data: seq<TestRun>, c: string, p: string, d: Date)
    requires |data| >= 2
    requires Reports(data[0], c, p) && Reports(data[1], c, p)
    requires data[0].byCrate[c][p].time <= data[1].byCrate[c][p].time
    ensures Holds(NewMedianRun(data, 1, d), c, p, data[1].byCrate[c][p].time)
  {
    MedianAtSecond(data, c, p, d);
  }

  /** On a climb, the window at the third run holds the second time. */
  lemma ClimbAtThird(data: seq<TestRun>, c: string, p: string, d: Date)
    requires |data| >= 3
    requires Reports(data[0], c, p) && Reports(data[1], c, p) && Reports(data[2], c, p)
    requires data[0].byCrate[c][p].time <= data[1].byCrate[c][p].time <= data[2].byCrate[c][p].time
    ensures Holds(NewMedianRun(data, 2, d), c, p, data[1].byCrate[c][p].time)
  {
    MedianAtThird(data, c, p, d);
  }

  /** The window at the second run holds two times; its median is the
      larger. */
  lemma MedianAtSecond(data: seq<TestRun>, c: string, p: string, d: Date)
    requires |data| >= 2
    requires Reports(data[0], c, p) && Reports(data[1], c, p)
    ensures var m := NewMedianRun(data, 1, d);
      c in m.byCrate && p in m.byCrate[c]
      && m.byCrate[c][p] == Max(data[1].byCrate[c][p].time, data[0].byCrate[c][p].time)
  {
    assert InWindow(|data|, 1, 1);
    MedianRunValue(data, 1, d, c, p, 1);
    WindowAtSecond(data);
    PhaseValuesOfTwo(data[1].byCrate, data[0].byCrate, c, p);
    MedianOfTwo(data[1].byCrate[c][p].time, data[0].byCrate[c][p].time);
  }

  /** The window at the third run holds three times; its median is the
      middle one. */
  lemma MedianAtThird(data: seq<TestRun>, c: string, p: string, d: Date)
    requires |data| >= 3
    requires Reports(data[0], c, p) && Reports(data[1], c, p) && Reports(data[2], c, p)
    ensures var m := NewMedianRun(data, 2, d);
      c in m.byCrate && p in m.byCrate[c]
      && m.byCrate[c][p] == Max(Min(data[1].byCrate[c][p].time, data[0].byCrate[c][p].time),
                                Min(data[2].byCrate[c][p].time,
                                    Max(data[1].byCrate[c][p].time, data[0].byCrate[c][p].time)))
  {
    assert InWindow(|data|, 2, 2);
    MedianRunValue(data, 2, d, c, p, 2);
    WindowAtThird(data);
    PhaseValuesOfThree(data[2].byCrate, data[1].byCrate, data[0].byCrate, c, p);
    MedianOfThree(data[2].byCrate[c][p].time, data[1].byCrate[c][p].time, data[0].byCrate[c][p].time);
  }

  /** The window at the second run reads the second and first runs. */
  lemma WindowAtSecond(data: seq<TestRun>)
    requires |data| >= 2
    ensures Window(data, 1) == [data[1].byCrate, data[0].byCrate]
  {
    var idx := WindowIndices(|data|, 1);
    assert idx == [1, 0];
    var w := Window(data, 1);
    assert |w| == 2 && w[0] == data[1].byCrate && w[1] == data[0].byCrate;
  }

  /** The window at the third run reads the third, second and first runs. */
  lemma WindowAtThird(data: seq<TestRun>)
    requires |data| >= 3
    ensures Window(data, 2) == [data[2].byCrate, data[1].byCrate, data[0].byCrate]
  {
    var idx := WindowIndices(|data|, 2);
    assert idx == [2, 1, 0];
    var w := Window(data, 2);
    assert |w| == 3 && w[0] == data[2].byCrate && w[1] == data[1].byCrate && w[2] == data[0].byCrate;
  }

  /** The times collected from two runs that both report the phase. */
  lemma PhaseValuesOfTwo(a: ByCrate, b: ByCrate, c: string, p: string)
    requires c in a && p in a[c] && c in b && p in b[c]
    ensures PhaseValues([a, b], c, p) == [a[c][p].time, b[c][p].time]
  {
    var w := [a, b];
    assert ReportingBelow(w, c, p, 1) == [0];
    assert ReportingBelow(w, c, p, 2) == [0, 1];
  }

  /** The times collected from three runs that all report the phase. */
  lemma PhaseValuesOfThree(a: ByCrate, b: ByCrate, e: ByCrate, c: string, p: string)
    requires c in a && p in a[c] && c in b && p in b[c] && c in e && p in e[c]
    ensures PhaseValues([a, b, e], c, p) == [a[c][p].time, b[c][p].time, e[c][p].time]
  {
    var w := [a, b, e];
    assert ReportingBelow(w, c, p, 1) == [0];
    assert ReportingBelow(w, c, p, 2) == [0, 1];
    assert ReportingBelow(w, c, p, 3) == [0, 1, 2];
  }
}

=== FILE: timings.dfy ===
/** Building one run's crate -> phase -> timing map from the entries of an
    input document, with a synthetic `total` phase per crate and, for
    bootstrap runs, a synthetic `total` crate aggregating every crate. */
module Timings {
  import opened LoadTypes

  /** The name of the synthetic phase and of the synthetic crate. */
  const TOTAL: string := "total"

  /** `m` is the greatest element of `s`. */
  predicate IsMaxOf(m: nat, s: set<nat>) {
    m in s && forall v :: v in s ==> v <= m
  }

  /** A finite non-empty set of naturals has a greatest element. */
  lemma {:induction false} HasMaximum(s: set<nat>)
    requires s != {}
    ensures exists m :: IsMaxOf(m, s)
  {
    var x :| x in s;
    if s - {x} == {} {
      SingletonMax(s, x);
    } else {
      HasMaximum(s - {x});
      var m: nat :| IsMaxOf(m, s - {x});
      ExtendMax(s, x, m);
    }
  }

  /** The only element of a set is its greatest. */
  lemma SingletonMax(s: set<nat>, x: nat)
    requires x in s && s - {x} == {}
    ensures IsMaxOf(x, s)
  {
    forall v | v in s
      ensures v <= x
    {
      assert v !in s - {x};
    }
  }

  /** The greater of the rest's maximum and one more element is the
      maximum of the whole set. */
  lemma ExtendMax(s: set<nat>, x: nat, m: nat)
    requires x in s && IsMaxOf(m, s - {x})
    ensures IsMaxOf(if x <= m then m else x, s)
  {
    var top := if x <= m then m else x;
    forall v | v in s
      ensures v <= top
    {
      if v != x {
        assert v in s - {x};
      }
    }
  }

  /** The greatest element of `s`, or 0 when `s` is empty. */
  function MaxOf(s: set<nat>): (r: nat)
    ensures forall v :: v in s ==> v <= r
    ensures s != {} ==> r in s
    ensures s == {} ==> r == 0
  {
    if s == {} then 0
    else
      HasMaximum(s);
      var m: nat :| IsMaxOf(m, s);
      m
  }

  /** The memory figures of an entry's optional `rss` object. */
  function RssValues(rss: Option<map<string, nat>>): set<nat> {
    if rss.Some? then rss.value.Values else {}
  }

  /** The memory figure the `rss` object gives for one phase, if any. */
  function PhaseRss(rss: Option<map<string, nat>>, phase: string): Option<nat> {
    if rss.Some? && phase in rss.value then Some(rss.value[phase]) else None
  }

  /** The phases an entry's timings will hold: those it reports, and `total`. */
  function PhaseNames(e: Entry): set<string> {
    e.times.Keys + {TOTAL}
  }

  /** The timings of one crate entry: each reported phase with its memory
      figure, and a synthetic `total` phase that replaces any reported one. */
  function PhaseTimings(e: Entry): (r: Phases)
    ensures r.Keys == PhaseNames(e)
    ensures r[TOTAL] == Timing(100.0, e.total, Some(MaxOf(RssValues(e.rss))))
    ensures forall p :: p in e.times && p != TOTAL ==>
      r[p] == Timing(e.times[p].percent, e.times[p].time, PhaseRss(e.rss, p))
  {
    var reported := map p | p in e.times :: Timing(e.times[p].percent, e.times[p].time, PhaseRss(e.rss, p));
    reported[TOTAL := Timing(100.0, e.total, Some(MaxOf(RssValues(e.rss))))]
  }

  /** The synthetic `total` phase of a crate carries the largest memory
      figure of any of its phases. */
  lemma TotalRssBoundsPhases(e: Entry)
    ensures PhaseTimings(e)[TOTAL].rss.Some?
    ensures forall p :: p in PhaseTimings(e) && PhaseTimings(e)[p].rss.Some? ==>
      PhaseTimings(e)[p].rss.value <= PhaseTimings(e)[TOTAL].rss.value
  {
    var r := PhaseTimings(e);
    forall p | p in r && r[p].rss.Some?
      ensures r[p].rss.value <= r[TOTAL].rss.value
    {
      if p != TOTAL {
        assert r[p].rss.value in RssValues(e.rss);
      }
    }
  }

  /** The larger of two optional figures, where any figure beats none. */
  function MaxOption(a: Option<nat>, b: Option<nat>): (r: Option<nat>)
    ensures r == a || r == b
    ensures r.None? <==> a.None? && b.None?
    ensures a.Some? ==> a.value <= r.value
    ensures b.Some? ==> b.value <= r.value
  {
    match (a, b)
    case (None, _) => b
    case (_, None) => a
    case (Some(x), Some(y)) => if x < y then b else a
  }

  /** The starting value of a phase's running aggregate. */
  function ZeroTiming(): (t: Timing)
    ensures t.percent == 0.0 && t.time == 0.0 && t.rss == Some(0)
  {
    Timing(0.0, 0.0, Some(0))
  }

  /** Adds one crate's phases into the running per-phase aggregate: times
      add up, memory takes the maximum, a phase seen for the first time
      starts from `ZeroTiming`, and a phase the crate lacks is untouched. */
  function AddPhases(totals: Phases, times: Phases): (r: Phases)
    ensures r.Keys == totals.Keys + times.Keys
    ensures forall p :: p in times ==>
      var acc := if p in totals then totals[p] else ZeroTiming();
      && r[p].percent == acc.percent
      && r[p].time == acc.time + times[p].time
      && r[p].rss == MaxOption(times[p].rss, acc.rss)
    ensures forall p :: p in totals && p !in times ==> r[p] == totals[p]
  {
    map p | p in totals.Keys + times.Keys ::
      if p in times then
        var acc := if p in totals then totals[p] else ZeroTiming();
        Timing(acc.percent, acc.time + times[p].time, MaxOption(times[p].rss, acc.rss))
      else totals[p]
  }

  /** The time reported for phase `p` by entry `e`, or 0 if it has none. */
  function TimeOf(e: Entry, p: string): real {
    if p in PhaseTimings(e) then PhaseTimings(e)[p].time else 0.0
  }

  /** The sum, over the entries, of the time each reports for phase `p`. */
  function PhaseTimeSum(es: seq<Entry>, p: string): real {
    if |es| == 0 then 0.0 else TimeOf(es[0], p) + PhaseTimeSum(es[1..], p)
  }

  /** The largest memory figure any entry reports for phase `p`, or 0. */
  function PhaseRssMax(es: seq<Entry>, p: string): (r: nat)
    ensures forall k :: 0 <= k < |es| && p in PhaseTimings(es[k]) && PhaseTimings(es[k])[p].rss.Some? ==>
      PhaseTimings(es[k])[p].rss.value <= r
  {
    if |es| == 0 then 0
    else
      var rest := PhaseRssMax(es[1..], p);
      var here := if p in PhaseTimings(es[0]) && PhaseTimings(es[0])[p].rss.Some?
                  then PhaseTimings(es[0])[p].rss.value else 0;
      if here < rest then rest else here
  }

  /** The per-phase aggregate over all entries, in input order; it becomes
      the synthetic `total` crate of a bootstrap run. */
  function Totals(es: seq<Entry>): (r: Phases)
    ensures r.Keys == ReportedPhases(es)
    ensures forall p :: p in r ==> r[p].percent == 0.0 && r[p].rss.Some?
  {
    if |es| == 0 then map[]
    else AddPhases(Totals(es[..|es| - 1]), PhaseTimings(es[|es| - 1]))
  }

  /** The phase names reported across the entries. */
  function ReportedPhases(es: seq<Entry>): set<string> {
    if |es| == 0 then {} else ReportedPhases(es[..|es| - 1]) + PhaseNames(es[|es| - 1])
  }

  /** A phase is reported iff some entry reports it. */
  lemma {:induction false} ReportedPhasesChar(es: seq<Entry>)
    ensures forall p :: p in ReportedPhases(es) <==> exists k :: 0 <= k < |es| && p in PhaseNames(es[k])
  {
    forall p
      ensures p in ReportedPhases(es) <==> exists k :: 0 <= k < |es| && p in PhaseNames(es[k])
    {
      ReportedPhaseChar(es, p);
    }
  }

  /** `ReportedPhasesChar` for one phase. */
  lemma {:induction false} ReportedPhaseChar(es: seq<Entry>, p: string)
    ensures p in ReportedPhases(es) <==> exists k :: 0 <= k < |es| && p in PhaseNames(es[k])
  {
    if |es| > 0 {
      var n := |es| - 1;
      var init := es[..n];
      ReportedPhaseChar(init, p);
      if p in ReportedPhases(init) {
        var k :| 0 <= k < |init| && p in PhaseNames(init[k]);
        assert init[k] == es[k];
      }
      if exists k :: 0 <= k < |es| && p in PhaseNames(es[k]) {
        var k :| 0 <= k < |es| && p in PhaseNames(es[k]);
        if k < n {
          assert init[k] == es[k];
        }
      }
    }
  }

  /** `PhaseTimeSum` taken over a prefix, then the last entry. */
  lemma {:induction false} PhaseTimeSumSnoc(es: seq<Entry>, p: string)
    requires |es| > 0
    ensures PhaseTimeSum(es, p) == PhaseTimeSum(es[..|es| - 1], p) + TimeOf(es[|es| - 1], p)
  {
    if |es| > 1 {
      PhaseTimeSumSnoc(es[1..], p);
      assert es[1..][..|es[1..]| - 1] == es[..|es| - 1][1..];
    }
  }

  /** `PhaseRssMax` taken over a prefix, then the last entry. */
  lemma {:induction false} PhaseRssMaxSnoc(es: seq<Entry>, p: string)
    requires |es| > 0
    ensures var last := es[|es| - 1];
            var here := if p in PhaseTimings(last) && PhaseTimings(last)[p].rss.Some?
                        then PhaseTimings(last)[p].rss.value else 0;
            var init := PhaseRssMax(es[..|es| - 1], p);
            PhaseRssMax(es, p) == if here < init then init else here
  {
    if |es| > 1 {
      PhaseRssMaxSnoc(es[1..], p);
      assert es[1..][..|es[1..]| - 1] == es[..|es| - 1][1..];
    }
  }

  /** Every phase of the aggregate sums that phase's time over all entries
      and carries the largest memory figure any entry reports for it. */
  lemma {:induction false} TotalsAggregate(es: seq<Entry>)
    ensures forall p :: p in Totals(es) ==> Totals(es)[p].time == PhaseTimeSum(es, p)
    ensures forall p :: p in Totals(es) ==> Totals(es)[p].rss == Some(PhaseRssMax(es, p))
  {
    forall p | p in Totals(es)
      ensures Totals(es)[p].time == PhaseTimeSum(es, p)
      ensures Totals(es)[p].rss == Some(PhaseRssMax(es, p))
    {
      TotalsAt(es, p);
    }
  }

  /** `TotalsAggregate` for one phase. */
  lemma TotalsAt(es: seq<Entry>, p: string)
    requires p in Totals(es)
    ensures Totals(es)[p].time == PhaseTimeSum(es, p)
    ensures Totals(es)[p].rss == Some(PhaseRssMax(es, p))
  {
    TotalsTimeAt(es, p);
    TotalsRssAt(es, p);
  }

  /** The aggregate's time for one phase is that phase's time summed over
      the entries. */
  lemma {:induction false} TotalsTimeAt(es: seq<Entry>, p: string)
    requires p in Totals(es)
    ensures Totals(es)[p].time == PhaseTimeSum(es, p)
  {
    var init := es[..|es| - 1];
    PhaseTimeSumSnoc(es, p);
    TotalsStep(es, p);
    if p in Totals(init) {
      TotalsTimeAt(init, p);
    } else {
      ReportedPhaseChar(init, p);
      ZeroContribution(init, p);
    }
  }

  /** The aggregate's memory figure for one phase is the largest figure
      any entry reports for it. */
  lemma {:induction false} TotalsRssAt(es: seq<Entry>, p: string)
    requires p in Totals(es)
    ensures Totals(es)[p].rss == Some(PhaseRssMax(es, p))
  {
    var init := es[..|es| - 1];
    PhaseRssMaxSnoc(es, p);
    TotalsStep(es, p);
    if p in Totals(init) {
      TotalsRssAt(init, p);
    } else {
      ReportedPhaseChar(init, p);
      ZeroContribution(init, p);
    }
  }

  /** One step of the aggregate, for one phase: the last entry's figures
      join the aggregate of the entries before it. */
  lemma TotalsStep(es: seq<Entry>, p: string)
    requires |es| > 0 && p in Totals(es)
    ensures var prev := Totals(es[..|es| - 1]);
      var last := PhaseTimings(es[|es| - 1]);
      var acc := if p in prev then prev[p] else ZeroTiming();
      Totals(es)[p] == if p in last then Timing(acc.percent, acc.time + last[p].time, MaxOption(last[p].rss, acc.rss))
                       else prev[p]
  {
    var prev := Totals(es[..|es| - 1]);
    var last := PhaseTimings(es[|es| - 1]);
    assert Totals(es) == AddPhases(prev, last);
  }

  /** A phase no entry reports sums to no time and no memory. */
  lemma {:induction false} ZeroContribution(es: seq<Entry>, p: string)
    requires forall k :: 0 <= k < |es| ==> p !in PhaseNames(es[k])
    ensures PhaseTimeSum(es, p) == 0.0 && PhaseRssMax(es, p) == 0
  {
    if |es| > 0 {
      assert p !in PhaseTimings(es[0]);
      ZeroContribution(es[1..], p);
    }
  }

  /** The sum of the entries' reported total times. */
  function EntryTotalSum(es: seq<Entry>): real {
    if |es| == 0 then 0.0 else es[0].total + EntryTotalSum(es[1..])
  }

  /** The largest memory figure of any entry, or 0. */
  function EntryRssMax(es: seq<Entry>): nat {
    if |es| == 0 then 0
    else
      var here := MaxOf(RssValues(es[0].rss));
      var rest := EntryRssMax(es[1..]);
      if here < rest then rest else here
  }

  /** The `total` phase of the aggregate sums the entries' total times, and
      its memory is the largest memory figure any entry reports. */
  lemma {:induction false} TotalOfTotals(es: seq<Entry>)
    requires |es| > 0
    ensures TOTAL in Totals(es)
    ensures Totals(es)[TOTAL].time == EntryTotalSum(es)
    ensures Totals(es)[TOTAL].rss == Some(EntryRssMax(es))
  {
    assert TOTAL in PhaseTimings(es[0]);
    TotalsAggregate(es);
    TotalPhaseIsEntryTotal(es);
  }

  /** Over the `total` phase, the generic sums are the entry-level ones. */
  lemma {:induction false} TotalPhaseIsEntryTotal(es: seq<Entry>)
    ensures PhaseTimeSum(es, TOTAL) == EntryTotalSum(es)
    ensures PhaseRssMax(es, TOTAL) == EntryRssMax(es)
  {
    if |es| > 0 {
      TotalPhaseIsEntryTotal(es[1..]);
    }
  }

  /** The position of the last entry for crate `c`, or -1 if there is none. */
  function LastEntryFor(es: seq<Entry>, c: string): (k: int)
    ensures -1 <= k < |es|
    ensures k >= 0 ==> es[k].krate == c
    ensures forall j :: k < j < |es| ==> es[j].krate != c
  {
    if |es| == 0 then -1
    else if es[|es| - 1].krate == c then |es| - 1
    else LastEntryFor(es[..|es| - 1], c)
  }

  /** Crate name to the timings of its entry; a later entry for the same
      crate replaces an earlier one. */
  function ByCrateOf(es: seq<Entry>): (r: ByCrate)
    ensures forall c :: c in r <==> LastEntryFor(es, c) >= 0
    ensures forall c :: c in r ==> r[c] == PhaseTimings(es[LastEntryFor(es, c)])
  {
    if |es| == 0 then map[]
    else
      var init, last := es[..|es| - 1], es[|es| - 1];
      var prev := ByCrateOf(init);
      var r := prev[last.krate := PhaseTimings(last)];
      forall c
        ensures c in r <==> LastEntryFor(es, c) >= 0
        ensures c in r ==> r[c] == PhaseTimings(es[LastEntryFor(es, c)])
      {
        ByCrateSnoc(es, c, prev, r);
      }
      r
  }

  /** Indexing the crates of a prefix, then letting the last entry replace
      its crate's timings, indexes the whole series (for one crate). */
  lemma ByCrateSnoc(es: seq<Entry>, c: string, prev: ByCrate, r: ByCrate)
    requires |es| > 0
    requires c in prev <==> LastEntryFor(es[..|es| - 1], c) >= 0
    requires c in prev ==> prev[c] == PhaseTimings(es[LastEntryFor(es[..|es| - 1], c)])
    requires r == prev[es[|es| - 1].krate := PhaseTimings(es[|es| - 1])]
    ensures c in r <==> LastEntryFor(es, c) >= 0
    ensures c in r ==> r[c] == PhaseTimings(es[LastEntryFor(es, c)])
  {
    if c != es[|es| - 1].krate {
      assert LastEntryFor(es, c) == LastEntryFor(es[..|es| - 1], c);
    }
  }

  /** The `by_crate` map of one run: every entry's crate, and for bootstrap
      runs the synthetic `total` crate, which replaces any entry of that name. */
  function MakeTimes(es: seq<Entry>, isRustc: bool): (r: ByCrate)
    ensures isRustc ==> TOTAL in r && r[TOTAL] == Totals(es)
    ensures forall c :: c != TOTAL ==> (c in r <==> LastEntryFor(es, c) >= 0)
    ensures !isRustc ==> (TOTAL in r <==> LastEntryFor(es, TOTAL) >= 0)
    ensures forall c :: c in r && (c != TOTAL || !isRustc) ==> r[c] == PhaseTimings(es[LastEntryFor(es, c)])
  {
    if isRustc then ByCrateOf(es)[TOTAL := Totals(es)] else ByCrateOf(es)
  }
}

=== FILE: types.dfy ===
/** The data model of the performance-dashboard loader: parsed input records,
    the per-run timing maps, the two run series, the median windows and the
    weekly summaries built from them. */
module LoadTypes {

  /** An optional value, as produced by a lookup that may miss. */
  datatype Option<+T> = None | Some(value: T)

  /** The ways a load can fail. Every one of them aborts the whole load:
      there is no partial result. */
  datatype LoadError =
    | MissingSeparator(filename: string)  // the file name holds no `--`
    | UnresolvableDate(filename: string)  // neither the header nor the file name gave a date
    | NoDates                             // no run was loaded at all
    | DawnOfData                          // a thin week collapsed onto the very first run

  /** Either a value or the error that aborted the load; usable with `:-`. */
  datatype Result<+T> = Ok(value: T) | Err(error: LoadError) {
    predicate IsFailure() {
      Err?
    }

    function PropagateFailure<U>(): Result<U>
      requires Err?
    {
      Err(error)
    }

    function Extract(): T
      requires Ok?
    {
      value
    }
  }

  /** An absolute instant, in seconds. */
  type Date = int

  /** The length of one week, in the unit of `Date`. */
  const WEEK: int := 7 * 24 * 60 * 60

  /** The number of weekly comparisons in a summary. */
  const WEEKS_IN_SUMMARY: nat := 12

  /** Which series a run belongs to: the bootstrap of the compiler itself, or
      one of the benchmark crates. */
  datatype Kind = Benchmarks | Rustc

  /** One phase of one crate in one run. */
  datatype Timing = Timing(percent: real, time: real, rss: Option<nat>)

  /** Phase name to timing. */
  type Phases = map<string, Timing>

  /** Crate name to its phases. */
  type ByCrate = map<string, Phases>

  /** The data loaded for a single date and commit. */
  datatype TestRun = TestRun(date: Date, commit: string, kind: Kind, byCrate: ByCrate)

  /** The `percent`/`time` pair reported for one phase in an input entry. */
  datatype PhaseTime = PhaseTime(percent: real, time: real)

  /** One element of an input document's `times` array: a crate, its total
      time, its phases and, optionally, the memory used per phase. */
  datatype Entry = Entry(
    krate: string,
    total: real,
    times: map<string, PhaseTime>,
    rss: Option<map<string, nat>>)

  /** One already-parsed input document. `date` is the header's date, or
      failing that the file name's date, or `None` when neither parses. */
  datatype Record = Record(filename: string, commit: string, date: Option<Date>, entries: seq<Entry>)

  /** The two series while the records are being folded in. */
  datatype Loaded = Loaded(rustc: seq<TestRun>, benchmarks: seq<TestRun>)

  /** Per-crate, per-phase numbers not tied to one run: either the median
      times of a window of runs, or the percent changes between two such
      windows. */
  datatype MedianRun = MedianRun(date: Date, byCrate: map<string, map<string, real>>)

  /** A series' trend: one long comparison and the weekly comparisons. */
  datatype Summary = Summary(total: MedianRun, weeks: seq<MedianRun>)

  /** Everything the dashboard serves, rebuilt from scratch on each load. */
  datatype InputData = InputData(
    summaryRustc: Summary,
    summaryBenchmarks: Summary,
    crateList: set<string>,
    phaseList: set<string>,
    benchmarks: set<string>,
    lastDate: Date,
    dataRustc: seq<TestRun>,
    dataBenchmarks: seq<TestRun>)
}
